=== FILE: README.md ===
# Plan, execute, verify, replan: a Dafny model of the mobile-QA loop

This project models the decision core of a mobile-UI test harness. Three
agents work together:

- a planner/executor (the Agent-S base agent, extended by `QAAgent`)
  proposes the next action for a high-level goal;
- a `VerifierAgent` asks a language model whether the current subtask
  already holds on screen;
- a `SupervisorAgent` reviews the whole run afterwards and writes a report.

The model covers these parts of the system:

- **Translator** (`EnvWrapper` in `run_wifi_test.py`). It turns the agent's
  `swipe`, `click`, `type`, `wait` and `done` calls into android_world
  action dictionaries or the `"DONE"` marker. This includes the swipe
  direction rule, descriptive clicks resolved by keywords against the
  current UI elements, coordinate clicks through `int()`, and Python's
  exceptions for malformed arguments.
- **Verifier** (`VerifierAgent.verify`). It builds the prompt from the UI
  elements and asks the model. It cleans the answer (strip, remove code
  fences, strip) and decodes it. The verdict is read case-insensitively, a
  missing verdict counts as "FAIL", and the agent is reset on every path.
  When the answer cannot be read, the check fails open.
- **QA agent** (`QAAgent.predict_and_verify`, and the earlier
  `QAAgent.predict`). The verification gate opens on a truthy subtask and a
  first action other than `"DONE"`. It returns a default "no verification"
  result otherwise. A failed check raises the base agent's `requires_replan`
  and `failure_subtask` flags.
- **Run loop** (`main`). The loop runs for at most 20 steps. It stops on
  `"DONE"` (an empty action list counts as `"DONE"`) and breaks when an
  action fails to execute. Each executed step is logged together with the
  screenshot it produced. The supervisor runs only when something was
  logged. The banner depends only on whether `"DONE"` was reached.
- **Supervisor** (`SupervisorAgent.analyze_trace`). It numbers the log
  trace and sends it with the screenshots. Its history is never reset. It
  returns the decoded report, or the fixed error report.

Collaborators are parameters of the model:

| collaborator | modelled as |
|---|---|
| language model | `Llm.Model`, a function from the conversation so far to a reply or a raised exception |
| `json.loads` | `Llm.Decoder` |
| `str()` of a UI element or a log | a `show` function |
| the base agent's own `predict` | `QaAgent.Planner` |
| the environment's `execute_action` | `RunLoop.Executor`, a function of the step index and the action dictionary |

Python's string operations are written out over characters: `lower`,
`upper`, `strip`, `split`, `join`, `replace`, `in` and `int()`.
`strip` and `split` treat space, `\t` to `\r` and the separators `\x1c` to
`\x1f` as whitespace. `int()` skips only space and `\t` to `\r` around its
digits, and it reads single underscores between digits (`"1_000"`).

Behaviour of the code worth knowing, which the model keeps:

- **`click("wifi")` on a screen showing "Wi-Fi" is a `wait`.** The code
  lowers the element text to `"wi-fi"`, which does not contain `"wifi"`,
  so the click silently falls back to a wait
  (`Translator.WifiScreenExamples`).
- **The screenshot logged with a step is the one after its action.** It is
  not the one the agent planned from, because `observation` is replaced
  before the append.
- **The `"DONE"` step is not logged.** Neither is a step whose action fails
  to execute: the loop breaks before the append.
- **Any other bare string proposal fails the run.** `JSONAction(**"...")`
  raises, so the run ends as failed (`RunLoop.MarkerFailsRun`).
- **The verifier fails open.** A model call that raises, an undecodable
  answer, a non-object answer, or a non-string verdict all pass with the
  reason "Could not get a valid verdict from the LLM.".
- **Verification sees the screen before the action.** The subtask is
  checked against the observation the agent planned from, before its
  action is executed.

The loop function `RunLoop.RunFrom` returns, for the loop from a given step
index on, how it ended, the loop variables at the start of the pass that
ended it, the loop variables at the start of every logged step, and the
logs and screenshots it appended. It prepends each step's entry to the logs
of the rest of the run, which yields the same sequence as Python's appends
in step order.

## Model

| member | source | states |
|---|---|---|
| Text.Lower | run_wifi_test.py:78 | `lower()` maps every character to its ASCII lower case, keeps the length, and keeps exactly the whitespace positions, so splitting the lowered description finds the same word boundaries |
| Text.LowerIdempotent | run_wifi_test.py:78 | lowering an already lowered description changes nothing |
| Text.Upper | verifier_agent.py:58 | `upper()` maps every character to its ASCII upper case and keeps the length |
| Text.Trim | verifier_agent.py:56 | `strip()` yields the infix of the text between a run of leading and a run of trailing whitespace, and neither end of the result is whitespace |
| Text.TrimRemovesPadding | verifier_agent.py:56 | stripping whitespace padding around a core that neither starts nor ends with whitespace gives back exactly that core |
| Text.TrimIdempotent | verifier_agent.py:56 | stripping twice is the same as stripping once |
| Text.TrimIgnoresPadding | verifier_agent.py:56 | extra whitespace around any text does not change what `strip()` returns |
| Text.Split | run_wifi_test.py:81 | `split()` returns only non-empty, whitespace-free words |
| Text.SplitJoinRoundTrip | run_wifi_test.py:81 | splitting the space-joined list of words gives back that list, in order |
| Text.ContainsIff | run_wifi_test.py:94 | the substring test `k in blob` holds exactly when `k` occurs in `blob` at some index |
| Text.ContainsAcrossSpace | run_wifi_test.py:85-94 | a whitespace-free keyword occurs in two attributes joined by a space exactly when it occurs in one of them |
| Text.RemoveAll | verifier_agent.py:56 | `replace(p, "")` never lengthens the text |
| Text.RemoveAllAbsent | verifier_agent.py:56 | replacing a pattern that does not occur leaves the text unchanged |
| Text.SplitOn | supervisor_agent.py:58 | splitting at a character yields at least one piece and no piece contains that character |
| Text.JoinSplitOn | supervisor_agent.py:58 | joining the pieces of a split with the split character rebuilds the text |
| Text.SplitOnJoin | supervisor_agent.py:58 | joining lines that contain no newline with `"\n"` and splitting at newlines gives back the lines |
| Text.NatToDecimal | supervisor_agent.py:58 | the decimal rendering of a number is a non-empty string of digits without a leading zero unless the number is 0 |
| Text.DecimalRoundTrip | supervisor_agent.py:58 | reading the digits of a rendered number gives back the number |
| Text.ParseIntOfDecimal | run_wifi_test.py:105 | `int()` of the decimal rendering of a natural number gives back that number |
| Text.ParseIntOfNegative | run_wifi_test.py:105 | `int()` of a minus sign followed by a decimal rendering gives back the negative number |
| Text.ParseIntIgnoresPadding | run_wifi_test.py:105 | `int()` of a run of digits padded on both sides with spaces and `\t` to `\r` is the value of the digits |
| Text.ParseIntKeepsSeparators | run_wifi_test.py:105 | `int()` does not skip the separator `\x1c` that `strip()` removes: `"\x1c5"` strips to `"5"` but raises ValueError |
| Text.ParseIntReadsUnderscores | run_wifi_test.py:105 | `int()` of two runs of digits joined by one underscore is the value of the digits without it |
| Text.ParseIntRejectsStrayUnderscores | run_wifi_test.py:105 | for any two runs of digits, `int()` raises ValueError on a doubled underscore between them, a leading underscore or a trailing underscore |
| Fences.StripFences | verifier_agent.py:56 | the cleaned answer contains no triple backtick and has no surrounding whitespace |
| Fences.StripFencesIdempotent | verifier_agent.py:56 | cleaning an already cleaned answer changes nothing |
| Fences.StripFencesOfPlainText | verifier_agent.py:56 | an answer without backticks is only stripped |
| Fences.StripFencesUnwrapsJsonBlock | verifier_agent.py:56 | an answer wrapped in a fenced json block is cleaned to the stripped block body |
| Llm.AnswerOfPlainText | verifier_agent.py:54-57 | an answer without backticks is decoded after only stripping surrounding whitespace |
| Llm.AnswerOfFencedBlock | verifier_agent.py:54-57 | an answer that wraps a backtick-free body in a fenced json block decodes the stripped body, as the supervisor also does at supervisor_agent.py:64-66 |
| Llm.AnswerIgnoresRecleaning | verifier_agent.py:56-57 | cleaning an answer before it is cleaned again does not change what is decoded |
| Translator.DictRoundTrip | run_wifi_test.py:66-109 | the action dictionaries are unambiguous: every action is recovered from its dictionary, and a dictionary that reads back as an action is exactly that action's dictionary. |
| Translator.SwipeDirection | run_wifi_test.py:58-64 | the direction is "down" or "up" exactly when the vertical displacement is strictly larger in magnitude, signed by its sign; otherwise "right" when the horizontal displacement is positive and "left" when it is not |
| Translator.SwipeReversal | run_wifi_test.py:58-64 | reversing a non-zero swipe gives the opposite direction; a zero swipe is "left" |
| Translator.Swipe | run_wifi_test.py:42-66 | a string first argument passes the second argument through as the direction. Four or five numbers always succeed, with the direction of the displacement. ValueError occurs exactly for a non-string first argument with another argument count, TypeError exactly when one of the four coordinates is not a number (a fifth argument, the duration, is never read), and IndexError exactly for no arguments or a lone string. Every success is a scroll |
| Translator.SwipeExamples | run_wifi_test.py:42-66 | a swipe from (100,100) to (100,300) scrolls down; a swipe from (100,100) to (300,100) with a duration scrolls right |
| Translator.FirstMatch | run_wifi_test.py:83-96 | the scan returns the lowest index whose element contains every keyword, or reports that no element from the start index on does |
| Translator.BlobMatchesAttributes | run_wifi_test.py:85-94 | a keyword without whitespace occurs in an element's combined, lower-cased text, description and resource id exactly when it occurs in one of the truthy attributes |
| Translator.DescriptiveClick | run_wifi_test.py:77-99 | a descriptive click is a click on the first element matching every keyword of the lowered description, and a `wait` exactly when no element matches |
| Translator.ClickResolvesByAttributes | run_wifi_test.py:81-96 | a click lands on element `i` exactly when each keyword occurs in one of its attributes and every earlier element misses some keyword |
| Translator.BlankDescriptionClicksFirst | run_wifi_test.py:81-96 | a blank description has no keywords, so it clicks the first element, or waits when there are none |
| Translator.ClickIgnoresDescriptionCase | run_wifi_test.py:78 | the letter case of the description never changes which element is clicked |
| Translator.Click | run_wifi_test.py:72-105 | a string first argument is a descriptive click. Otherwise the first two arguments become integer coordinates through `int()`: the click succeeds exactly when both convert, and otherwise fails with the error of the first that does not, `x` before `y`. IndexError occurs exactly when no argument, or only one non-string argument, is given |
| Translator.ClickParsesCoordinates | run_wifi_test.py:101-105 | a decimal string coordinate and a boolean coordinate are accepted through `int()`. An empty string raises ValueError, and `None` raises TypeError |
| Translator.ClickParsesPaddedCoordinates | run_wifi_test.py:101-105 | a decimal string coordinate padded with a space and a newline is accepted through `int()`, while `"\x1c5"` raises ValueError |
| Translator.FixedTranslations | run_wifi_test.py:68-113 | a coordinate click, `type` and `wait` produce the documented dictionaries. `wait` ignores its duration. `done` produces the bare marker, which is not a device action |
| Translator.WifiScreenExamples | run_wifi_test.py:77-99 | on the screen [text "Wi-Fi", text "Bluetooth"], "Wi-Fi" clicks index 0 and "wifi" falls back to `wait` |
| Verifier.UiLines | verifier_agent.py:49 | the UI text has one line per element, in order, each the element's rendering after "- " |
| Verifier.UiElementsTextLines | verifier_agent.py:49 | when no element renders across lines, splitting the UI text at newlines gives back exactly those lines |
| Verifier.UiElementsTextOfNone | verifier_agent.py:49 | an observation without UI elements contributes an empty element list |
| Verifier.ReadVerdict | verifier_agent.py:57-59 | a verdict is read exactly from an object answer whose verdict is absent or a string. It passes exactly when the string upper-cases to "PASS"; an absent verdict fails; a non-string verdict cannot be read. The reason is the answer's own or "No reason provided." |
| Verifier.Verify | verifier_agent.py:43-67 | the model sees the previous conversation plus the prompt. The agent is always reset afterwards. An unreadable answer passes with the fixed fail-open reason; a readable one gives its verdict and reason |
| Verifier.UpperIsPass | verifier_agent.py:58-62 | `verdict.upper() == "PASS"` holds exactly for the 16 letter-case spellings of "pass" |
| Verifier.VerifyPassesIff | verifier_agent.py:54-67 | a check passes exactly when the model call raised, the cleaned answer did not decode, the answer is not an object, its verdict is not a string, or its verdict spells "pass" in any letter case; so an object without a verdict, or with any other string verdict, fails |
| Verifier.VerifyFailsOpen | verifier_agent.py:64-67 | a raising model, an undecodable or non-object answer, and a non-string verdict all pass with the fixed fail-open reason |
| Verifier.MissingVerdictFails | verifier_agent.py:58-62 | an object answer without a verdict fails, with its own reason or "No reason provided." |
| Verifier.SuccessiveChecksIndependent | verifier_agent.py:52-66 | because every call resets the agent, the second of two checks sends only its own prompt and equals a check from a fresh agent |
| QaAgent.RequestReplan | qa_agent.py:42-44 | a replan request sets the replan flag and records the current subtask as the failed one, leaving the current subtask and turn count alone |
| QaAgent.PredictAndVerify | qa_agent.py:26-46 | the plan's info and actions pass through. With the gate closed, the result is the default passing one and the verifier is untouched. With it open, the result is the verifier's, the verifier ends fresh, and the base state is the plan's, with replan flags raised exactly on failure |
| QaAgent.ReplanIffFailedCheck | qa_agent.py:35-44 | the step reports a failure exactly when the gate opened and the check failed. Starting without a pending replan, the flag is raised exactly on failure. The failed subtask is the current one, and the turn count and current subtask never change |
| QaAgent.GateSkipsDoneAndSubtaskless | qa_agent.py:35-37 | no actions, a first action "DONE" or a falsy subtask skip the model entirely: default result, verifier untouched, base state as planned |
| QaAgent.FailOpenNeverReplans | qa_agent.py:37-44 | with a model that always raises, no step ever fails or requests a replan |
| QaAgent.VerifierStaysFresh | qa_agent.py:37-39 | a step started with a fresh verifier leaves it fresh |
| QaAgent.ReplanReachesNextPlan | qa_agent.py:42-44 | after a failed check, the next step plans from the base state with the replan flags raised |
| QaSystem.Predict | QA_system.py:33-58 | the earlier step returns the plan's info and actions. It leaves the verifier untouched when the gate is closed, and otherwise resets it and raises the replan flags exactly on a failed check |
| QaSystem.PredictAgreesWithPredictAndVerify | QA_system.py:40-58 | the earlier and the newer step return the same info and actions and leave the same agent state; only the verification result is new |
| Supervisor.AnalyzeTrace | supervisor_agent.py:52-72 | the history only grows, by one user message holding the numbered trace and the screenshots. The report is the decoded answer, or the fixed error report when none can be read |
| Supervisor.ErrorReportIff | supervisor_agent.py:63-72 | the error report comes back exactly when the answer is unreadable or is itself that object |
| Supervisor.HistoryAccumulates | supervisor_agent.py:59-61 | a second analysis from the same agent sends the model both prompts, since the agent is never reset |
| Supervisor.TraceRoundTrip | supervisor_agent.py:58 | when no log renders across lines, the trace splits back into one line per log. Each line is "Step ", the one-based position as `str()` writes it (which `int()` reads back), ": " and the rendered log |
| RunLoop.Proposed | run_wifi_test.py:160 | the proposal is the first action when there is one and "DONE" otherwise, so it is "DONE" exactly when there are no actions or the first action is "DONE" |
| RunLoop.Entry | run_wifi_test.py:183 | the entry of step index `i` is numbered `i + 1` and records the first proposed action, the plan's subtask (null when absent), and the verification's passed flag and reason |
| RunLoop.StepAt | run_wifi_test.py:159-185 | a pass continues exactly when its proposal is an action dictionary whose execution does not raise; it then logs the entry of that step's prediction and the produced screenshot, and moves to the next index with the returned agent and the produced state. Otherwise it stops where it is, as finished exactly when the proposal is "DONE" and as failed otherwise |
| RunLoop.RunFrom | run_wifi_test.py:156-185 | the loop logs one screenshot and one starting state per entry, no more entries than steps remain, ends at the index after its last logged step, and keeps the translator's elements equal to the observation's |
| RunLoop.RunFromEnds | run_wifi_test.py:156-181 | the budget is exhausted exactly when the run ends at index 20, i.e. every remaining step was logged; otherwise the run finished exactly when the pass it ended at proposed "DONE", and failed exactly when that pass proposed something else that did not execute |
| RunLoop.RunFromTrace | run_wifi_test.py:156-185 | the run is the chain of its passes from the starting state: logged step `k` started at index `start + k`, executed the action proposed there, logged that prediction's entry with the produced screenshot, and led to the next logged step's start or to the state the run ended at |
| RunLoop.RunFromKeepsVerifierFresh | run_wifi_test.py:159 | with an agent step that keeps the verifier fresh, it is fresh at the start of every logged step and when the loop ends |
| RunLoop.RunFromStaysInSync | run_wifi_test.py:156-185 | when the translator starts in sync with the observation, it is in sync at the start of every logged step |
| RunLoop.RunFromShowsLastShot | run_wifi_test.py:177-185 | the final observation shows the last logged screenshot, or is the starting observation when nothing was logged |
| RunLoop.Start | run_wifi_test.py:147-149 | the loop starts at step index 0 with the given agent, observing the reset state (its screenshot and its UI elements), and with the translator holding the reset state's elements |
| RunLoop.RunTest | run_wifi_test.py:147-195 | the run starts from the reset state. It is successful exactly when it ended at a pass, within the budget, that proposed "DONE". A report exists exactly when something was logged, and it is the supervisor's analysis of exactly those logs and screenshots |
| RunLoop.RunShape | run_wifi_test.py:151-185 | a whole run from the reset state logs at most 20 entries, one screenshot each, and exhausts the budget exactly when all 20 were logged. Entry `k` is the `step_log` of the prediction made at step index `k`, whose action executed, with the screenshot of the state it produced, and the passes chain from the reset state on |
| RunLoop.SuccessWithinBudget | run_wifi_test.py:156-181 | a successful run ended at a pass that proposed "DONE", with fewer than 20 entries logged; an unsuccessful one logged all 20 or ended at a pass whose non-"DONE" proposal did not execute |
| RunLoop.VerdictIgnoresSupervisor | run_wifi_test.py:189-195 | the supervisor's answer changes neither the run, nor the verdict, nor the banner |
| RunLoop.ImmediateDone | run_wifi_test.py:159-168 | "DONE" (or nothing) at the first step is a successful run with no logs, no report and the success banner |
| RunLoop.MarkerFailsRun | run_wifi_test.py:170-181 | when the first proposed action is a bare string other than "DONE", the run ends as failed without logging |
| RunLoop.QaSetupKeepsVerifierFresh | qa_agent.py:37-39 | every step of the QA agent leaves a fresh verifier fresh |
| RunLoop.RunKeepsInvariants | run_wifi_test.py:147-185 | in the QA setup, the translator's elements match the observation and the verifier is fresh at the start of every logged step and at the pass that ended the run, and the final observation shows the last logged screenshot, or the reset screenshot when nothing was logged |

## Left out

- Prompt wording: the verifier and supervisor prompts are kept as
  structured values (subgoal and UI text; goal and trace). The template
  text is not modelled, so `format` is not either.
- `json.loads` is the `Llm.Decoder` parameter. JSON parsing itself, floats
  and non-ASCII strings are not modelled. Numbers are integers.
- Text.ParseInt: the interpreter's limit on the number of digits `int()`
  converts is not modelled. By default CPython 3.11 and later raise ValueError
  above 4300 digits, and the limit can be changed at run time. `str()` of an
  integer has the same limit, and `Text.NatToDecimal` does not model it either.
  So `Text.ParseIntOfDecimal` and `Translator.ClickParsesCoordinates` also
  hold for numbers that long, where Python would raise.
- Unicode: `lower`, `upper`, `isspace` and `int()` are modelled for ASCII.
  `int()` of non-ASCII digits or non-ASCII whitespace is not modelled.
- Environment lifecycle: `env.reset`, `execute_action`, `get_state`,
  `env.close`, `convert_to_png` and the launch-failure early return are
  outside the model. The executor parameter stands for `execute_action`
  together with its `None`-then-`get_state` fallback. The reset state is
  an input.
- Executor: `JSONAction(**action)` validation and every exception raised
  while executing are folded into one `Crashed` outcome. The model does
  not say which inputs make it raise.
- Executor: it is a function of the step index and the action dictionary
  alone. A real device can answer the same action differently at the same
  step for reasons outside the model.
- The Agent-S base agent's `predict` is the `QaAgent.Planner` parameter.
  The model does not say how it reads the replan flags it is given, or how
  it calls the translator. Only the translator's UI elements are passed to
  it.
- `str()` of UI elements, of action dictionaries and of log dictionaries
  is a `show` parameter.
- `EnvWrapper.assign_coordinates` and the `__getattr__` pass-through to
  the wrapped environment are not modelled; neither plays a part in the
  loop's decisions.
- `print`, `time.sleep` and the printed JSON report have no effect on any
  decision and are left out.
- Translator.Swipe: Python's `-` also accepts floats, so float
  coordinates are outside the model. A non-numeric coordinate is a
  TypeError.
- RunLoop: `Run` keeps the loop variables at the start of the pass that
  ended the run, not the agent state that pass's prediction returned;
  nothing after the loop reads that agent.
- RunLoop.RunFromKeepsVerifierFresh: it is stated for an agent step that
  keeps the verifier fresh. `RunLoop.QaSetupKeepsVerifierFresh` discharges
  this for the QA agent's own step.

=== FILE: env.dfy ===
/** What the Android environment hands the core: UI elements, screenshots,
    states and the observation dictionary built from a state. */
module Env {
  import opened Wrappers

  /** An encoded screenshot (the output of `convert_to_png`). */
  type Png = seq<bv8>

  /** A UI element; each attribute may be `None`, and `content_description`
      may be missing altogether, which reads the same as `None`. */
  datatype UIElement = UIElement(
    text: Option<string>,
    contentDescription: Option<string>,
    resourceId: Option<string>)

  /** An environment state: the screen and its UI elements. */
  datatype EnvState = EnvState(screenshot: Png, uiElements: seq<UIElement>)

  /** The observation dictionary `{'screenshot': …, 'ui_elements': …}`; a
      dictionary without the `ui_elements` key has `uiElements == None`. */
  datatype Observation = Observation(screenshot: Png, uiElements: Option<seq<UIElement>>)

  /** The observation the run loop builds from a state. */
  function ObservationOf(st: EnvState): (o: Observation)
    ensures o.uiElements == Some(st.uiElements) && o.screenshot == st.screenshot
  {
    Observation(st.screenshot, Some(st.uiElements))
  }
}

=== FILE: fences.dfy ===
/**
 Code-fence stripping applied to every model answer before it is decoded:
 strip, delete every "```json", delete every "```", strip again.
 */
module Fences {
  import opened Text

  const Tick: char := '`'
  const Fence: string := "```"
  const JsonFence: string := "```json"

  predicate StartsWith(s: string, p: string) {
    |p| <= |s| && s[..|p|] == p
  }

  /** The cleaned text handed to the JSON decoder. No triple backtick survives
      it, and it carries no surrounding whitespace. */
  function StripFences(text: string): (r: string)
    ensures !Contains(r, Fence)
    ensures Trim(r) == r
  {
    StrippedIsClean(text);
    Trim(RemoveAll(RemoveAll(Trim(text), JsonFence), Fence))
  }

  lemma StrippedIsClean(text: string)
    ensures var r := Trim(RemoveAll(RemoveAll(Trim(text), JsonFence), Fence));
              !Contains(r, Fence) && Trim(r) == r
  {
    var unjson := RemoveAll(Trim(text), JsonFence);
    RemoveFenceLeavesNone(unjson);
    TrimKeepsClean(RemoveAll(unjson, Fence));
  }

  /** Stripping a text without "```" leaves none, and is final. */
  lemma TrimKeepsClean(cleaned: string)
    requires !Contains(cleaned, Fence)
    ensures !Contains(Trim(cleaned), Fence) && Trim(Trim(cleaned)) == Trim(cleaned)
  {
    var k := LeadingSpaces(cleaned);
    var r := Trim(cleaned);
    assert r == cleaned[k..k + |r|];
    InfixKeepsAbsence(cleaned, Fence, k, k + |r|);
    TrimIdempotent(cleaned);
  }

  /** Removing a pattern keeps the first character when the text does not start with the pattern. */
  lemma RemoveAllKeepsHead(s: string, p: string)
    requires |p| > 0 && |s| >= 1 && !StartsWith(s, p)
    ensures |RemoveAll(s, p)| >= 1 && RemoveAll(s, p)[0] == s[0]
  {
  }

  lemma {:induction false} RemoveFenceNoDoubleTick(s: string)
    requires !StartsWith(s, [Tick, Tick])
    ensures !StartsWith(RemoveAll(s, Fence), [Tick, Tick])
    decreases |s|
  {
    if |s| >= 3 {
      assert s[..3] != Fence by {
        assert s[..2] == s[..3][..2];
      }
      if s[0] == Tick {
        assert s[1] != Tick by {
          assert s[..2] == [s[0], s[1]];
        }
        assert !StartsWith(s[1..], Fence);
        RemoveAllKeepsHead(s[1..], Fence);
      }
    }
  }

  /** After every "```" has been deleted, none is left: deleting one never
      joins backticks on either side into a new one. */
  lemma {:induction false} RemoveFenceLeavesNone(s: string)
    ensures !Contains(RemoveAll(s, Fence), Fence)
    decreases |s|
  {
    if |s| < 3 {
    } else if s[..3] == Fence {
      RemoveFenceLeavesNone(s[3..]);
    } else {
      var rest := RemoveAll(s[1..], Fence);
      var r := [s[0]] + rest;
      assert RemoveAll(s, Fence) == r;
      RemoveFenceLeavesNone(s[1..]);
      assert r[1..] == rest;
      if s[0] == Tick {
        assert s[..3] == [s[0]] + s[1..][..2];
        assert !StartsWith(s[1..], [Tick, Tick]);
        RemoveFenceNoDoubleTick(s[1..]);
        if |r| >= 3 {
          assert r[..3] != Fence by {
            assert rest[..2] == r[1..3];
          }
        }
      }
    }
  }

  /** Whatever occurs in an infix of a string occurs in the string. */
  lemma InfixKeepsAbsence(s: string, p: string, lo: int, hi: int)
    requires 0 <= lo <= hi <= |s|
    ensures Contains(s[lo..hi], p) ==> Contains(s, p)
  {
    var t := s[lo..hi];
    if Contains(t, p) {
      ContainsIff(t, p);
      var i :| OccursAt(t, p, i);
      assert t[i..i + |p|] == p;
      assert forall j :: 0 <= j < |p| ==> p[j] == t[i + j] == s[lo + i + j];
      assert s[lo + i..lo + i + |p|] == p;
      assert OccursAt(s, p, lo + i);
      ContainsIff(s, p);
    }
  }

  lemma JsonFenceContainsFence(s: string)
    ensures Contains(s, JsonFence) ==> Contains(s, Fence)
  {
    if Contains(s, JsonFence) {
      ContainsIff(s, JsonFence);
      var i :| OccursAt(s, JsonFence, i);
      assert s[i..i + 3] == s[i..i + 7][..3];
      assert OccursAt(s, Fence, i);
      ContainsIff(s, Fence);
    }
  }

  /** Stripping cleaned text again changes nothing. */
  lemma StripFencesIdempotent(text: string)
    ensures StripFences(StripFences(text)) == StripFences(text)
  {
    var r := StripFences(text);
    JsonFenceContainsFence(r);
    RemoveAllAbsent(r, JsonFence);
    RemoveAllAbsent(r, Fence);
  }

  /** Text free of backticks passes through a pattern that starts with one. */
  lemma {:induction false} RemoveAllSkipsTickFree(a: string, b: string, p: string)
    requires |p| > 0 && p[0] == Tick
    requires Tick !in a
    ensures RemoveAll(a + b, p) == a + RemoveAll(b, p)
  {
    var s := a + b;
    if a == [] {
      assert s == b;
    } else if |s| < |p| {
      RemoveAllShort(s, p);
      RemoveAllShort(b, p);
    } else {
      assert a[0] != Tick;
      assert s[..|p|] != p by { assert s[..|p|][0] == a[0]; }
      assert RemoveAll(s, p) == [s[0]] + RemoveAll(s[1..], p);
      assert s[1..] == a[1..] + b;
      RemoveAllSkipsTickFree(a[1..], b, p);
      assert [a[0]] + (a[1..] + RemoveAll(b, p)) == a + RemoveAll(b, p);
    }
  }

  lemma RemoveAllShort(s: string, p: string)
    requires 0 < |p| && |s| < |p|
    ensures RemoveAll(s, p) == s
  {
  }

  /** A backtick-free answer is only stripped of surrounding whitespace. */
  lemma StripFencesOfPlainText(body: string)
    requires Tick !in body
    ensures StripFences(body) == Trim(body)
  {
    var t := Trim(body);
    var k := LeadingSpaces(body);
    assert t == body[k..k + |t|];
    assert Tick !in t;
    RemoveAllSkipsTickFree(t, [], JsonFence);
    RemoveAllSkipsTickFree(t, [], Fence);
    assert t + [] == t;
    TrimIdempotent(body);
  }

  lemma DropJsonFence(m: string)
    requires Tick !in m
    ensures RemoveAll(JsonFence + (m + Fence), JsonFence) == m + Fence
  {
    var s := JsonFence + (m + Fence);
    assert s[..|JsonFence|] == JsonFence;
    assert s[|JsonFence|..] == m + Fence;
    RemoveAllSkipsTickFree(m, Fence, JsonFence);
    RemoveAllShort(Fence, JsonFence);
  }

  lemma DropClosingFence(m: string)
    requires Tick !in m
    ensures RemoveAll(m + Fence, Fence) == m
  {
    RemoveAllSkipsTickFree(m, Fence, Fence);
    assert Fence[3..] == [];
    assert RemoveAll(Fence, Fence) == RemoveAll([], Fence) == [];
    assert m + [] == m;
  }

  /** An answer wrapped in a ```json fence, as models commonly return it,
      decodes from exactly the stripped body. */
  lemma StripFencesUnwrapsJsonBlock(body: string)
    requires Tick !in body
    ensures StripFences(JsonFence + "\n" + body + "\n" + Fence) == Trim(body)
  {
    var m := "\n" + body + "\n";
    var s := JsonFence + "\n" + body + "\n" + Fence;
    assert s == JsonFence + (m + Fence);
    assert s[0] == Tick && s[|s| - 1] == Tick;
    TrimOfSpaceFree(s);
    assert Tick !in m;
    DropJsonFence(m);
    DropClosingFence(m);
    TrimIgnoresPadding("\n", body, "\n");
  }
}

=== FILE: json.dfy ===
/** The Python values that cross the core's boundaries: arguments of agent
    calls, objects produced by `json.loads`, and the reasons carried in logs. */
module Json {

  /** A JSON-shaped Python value; numbers are integers only. */
  datatype Value =
    | Null
    | Bool(b: bool)
    | Num(n: int)
    | Str(s: string)
    | Arr(items: seq<Value>)
    | Obj(fields: map<string, Value>)

  /** `d.get(key, default)` on a dictionary. */
  function Lookup(fields: map<string, Value>, key: string, default: Value): (v: Value)
    ensures key in fields ==> v == fields[key]
    ensures key !in fields ==> v == default
  {
    if key in fields then fields[key] else default
  }

  /** Python truthiness: `None`, `False`, `0` and empty containers are false. */
  predicate Truthy(v: Value) {
    match v
    case Null => false
    case Bool(b) => b
    case Num(n) => n != 0
    case Str(s) => s != ""
    case Arr(items) => items != []
    case Obj(fields) => fields != map[]
  }
}

=== FILE: llm.dfy ===
/** The language-model collaborator, reduced to its interface: the conversation
    an agent hands it, the raw text it answers, and the JSON decoder applied to
    that text. */
module Llm {
  import opened Wrappers
  import Json
  import Env
  import Fences
  import Text

  /** The two prompt templates, by the values substituted into them. */
  datatype Prompt =
    | VerifierPrompt(subgoal: Json.Value, uiElements: string)
    | SupervisorPrompt(goal: string, logTrace: string)

  /** One message added with `add_message`: role, prompt and attached images. */
  datatype Message = Message(role: string, prompt: Prompt, images: seq<Env.Png>)

  type Conversation = seq<Message>

  /** The state a freshly created or reset agent starts from. */
  const FreshConversation: Conversation := []

  /** What `call_llm_safe` does: raise, or return text. */
  datatype Reply = Raised | Text(text: string)

  /** The model answers as a function of the whole conversation it is given. */
  type Model = Conversation -> Reply

  /** `json.loads`; `None` when it raises. */
  type Decoder = string -> Option<Json.Value>

  /** The value an agent reads from a reply: the answer, stripped of code
      fences, decoded; `None` when the call or the decoding raises. */
  function Answer(reply: Reply, decode: Decoder): (v: Option<Json.Value>)
    ensures reply.Raised? ==> v.None?
    ensures reply.Text? ==> v == decode(Fences.StripFences(reply.text))
  {
    match reply
    case Raised => None
    case Text(t) => decode(Fences.StripFences(t))
  }

  /** An answer without backticks is decoded after stripping whitespace. */
  lemma AnswerOfPlainText(t: string, decode: Decoder)
    requires Fences.Tick !in t
    ensures Answer(Text(t), decode) == decode(Text.Trim(t))
  {
    Fences.StripFencesOfPlainText(t);
  }

  /** An answer that wraps a backtick-free body in a fenced json block is
      decoded from the stripped body. */
  lemma AnswerOfFencedBlock(body: string, decode: Decoder)
    requires Fences.Tick !in body
    ensures Answer(Text(Fences.JsonFence + "\n" + body + "\n" + Fences.Fence), decode) == decode(Text.Trim(body))
  {
    Fences.StripFencesUnwrapsJsonBlock(body);
  }

  /** Cleaning the answer beforehand does not change what is decoded. */
  lemma AnswerIgnoresRecleaning(t: string, decode: Decoder)
    ensures Answer(Text(Fences.StripFences(t)), decode) == Answer(Text(t), decode)
  {
    Fences.StripFencesIdempotent(t);
  }
}

=== FILE: qa_agent.dfy ===
/**
 The QA agent's step: the base agent plans and proposes actions, the verifier
 checks the current subtask against the observation, and a failed check
 raises the base agent's replan flags.
 */
module QaAgent {
  import opened Wrappers
  import Json
  import opened Env
  import opened Llm
  import opened Translator
  import Verifier

  const NoVerificationReason: string := "No verification performed."

  /** A subtask node of the base agent's plan. */
  datatype Node = Node(name: string, info: string)

  /** The part of the base agent's state the QA layer reads and writes, with
      its turn counter; the rest of the base agent is not modelled. */
  datatype BaseState = BaseState(
    requiresReplan: bool,
    failureSubtask: Option<Node>,
    currentSubtask: Option<Node>,
    turnCount: nat)

  /** The QA agent: the base agent's state and the verifier's conversation. */
  datatype Agent = Agent(base: BaseState, verifier: Conversation)

  /** What the base agent's `predict` returns, and its state afterwards. */
  datatype Planned = Planned(info: map<string, Json.Value>, actions: seq<AgentAction>, base: BaseState)

  /** The base agent's `predict`: its planner and executor, which ground their
      calls in the translator's current UI elements. */
  type Planner = (BaseState, seq<UIElement>, string, Observation) -> Planned

  /** The verifier's collaborators: `str` of a UI element, the model and
      `json.loads`. `RunLoop.Reviewer` is the supervisor's counterpart. */
  datatype Judge = Judge(show: UIElement -> string, llm: Model, decode: Decoder)

  /** The `verification_result` dictionary. */
  datatype VerificationResult = VerificationResult(passed: bool, reason: Json.Value)

  const NoVerification: VerificationResult := VerificationResult(true, Json.Str(NoVerificationReason))

  /** What `predict_and_verify` returns, and the agent afterwards. */
  datatype Prediction = Prediction(
    info: map<string, Json.Value>,
    actions: seq<AgentAction>,
    verification: VerificationResult,
    agent: Agent)

  /** `info.get("subtask")`. */
  function Subtask(info: map<string, Json.Value>): Json.Value {
    Json.Lookup(info, "subtask", Json.Null)
  }

  /** The gate: a truthy subtask and a first action other than "DONE". */
  predicate ShouldVerify(p: Planned) {
    Json.Truthy(Subtask(p.info)) && |p.actions| > 0 && p.actions[0] != Done
  }

  /** The verifier's outcome for a planned step. */
  function Check(agent: Agent, judge: Judge, p: Planned, obs: Observation): Verifier.Outcome {
    Verifier.Verify(agent.verifier, Subtask(p.info), obs, judge.show, judge.llm, judge.decode)
  }

  /** Raises the replan flags: replan, naming the current subtask as the failed one. */
  function RequestReplan(b: BaseState): (b': BaseState)
    ensures b'.requiresReplan && b'.failureSubtask == b.currentSubtask
    ensures b'.currentSubtask == b.currentSubtask && b'.turnCount == b.turnCount
  {
    b.(requiresReplan := true, failureSubtask := b.currentSubtask)
  }

  /** `predict_and_verify(instruction, observation)`. The planned info and
      actions pass through unchanged; the verification result is the
      verifier's when the gate opens and the fixed passing one otherwise; a
      failed check raises the replan flags. */
  function PredictAndVerify(agent: Agent, elements: seq<UIElement>, judge: Judge,
                            plan: Planner, instruction: string, obs: Observation): (r: Prediction)
    ensures var p := plan(agent.base, elements, instruction, obs);
            && r.info == p.info && r.actions == p.actions
            && (!ShouldVerify(p) ==> r.verification == NoVerification && r.agent == Agent(p.base, agent.verifier))
            && (ShouldVerify(p) ==>
                  var o := Check(agent, judge, p, obs);
                  && r.verification == VerificationResult(o.passed, o.reason)
                  && r.agent.verifier == FreshConversation
                  && r.agent.base == (if o.passed then p.base else RequestReplan(p.base)))
  {
    var p := plan(agent.base, elements, instruction, obs);
    if ShouldVerify(p) then
      var o := Check(agent, judge, p, obs);
      var base := if o.passed then p.base else RequestReplan(p.base);
      Prediction(p.info, p.actions, VerificationResult(o.passed, o.reason), Agent(base, o.conversation))
    else
      Prediction(p.info, p.actions, NoVerification, Agent(p.base, agent.verifier))
  }

  /** A replan is requested by this step exactly when the verifier ran and
      failed; a requested replan names the subtask current after planning;
      and the turn counter and current subtask are never touched. */
  lemma ReplanIffFailedCheck(agent: Agent, elements: seq<UIElement>, judge: Judge,
                             plan: Planner, instruction: string, obs: Observation)
    ensures var p := plan(agent.base, elements, instruction, obs);
            var r := PredictAndVerify(agent, elements, judge, plan, instruction, obs);
            && (!r.verification.passed <==> ShouldVerify(p) && !Check(agent, judge, p, obs).passed)
            && (!p.base.requiresReplan ==> (r.agent.base.requiresReplan <==> !r.verification.passed))
            && (!r.verification.passed ==> r.agent.base.failureSubtask == p.base.currentSubtask)
            && (r.verification.passed ==> r.agent.base == p.base)
            && r.agent.base.currentSubtask == p.base.currentSubtask
            && r.agent.base.turnCount == p.base.turnCount
  {
  }

  /** Steps that end the run ("DONE" first, or no action at all) and steps
      without a subtask are never verified: the model is not consulted and
      the verifier's conversation is left as it was. */
  lemma GateSkipsDoneAndSubtaskless(agent: Agent, elements: seq<UIElement>, judge: Judge,
                                    plan: Planner, instruction: string, obs: Observation)
    ensures var p := plan(agent.base, elements, instruction, obs);
            var r := PredictAndVerify(agent, elements, judge, plan, instruction, obs);
            (|p.actions| == 0 || p.actions[0] == Done || !Json.Truthy(Subtask(p.info))) ==>
              r.verification == NoVerification && r.agent.verifier == agent.verifier
              && r.agent.base == p.base
  {
  }

  /** A model that always raises never triggers a replan: the verifier fails open. */
  lemma FailOpenNeverReplans(agent: Agent, elements: seq<UIElement>, show: UIElement -> string,
                             decode: Decoder, plan: Planner, instruction: string, obs: Observation)
    ensures var judge := Judge(show, (c: Conversation) => Raised, decode);
            var p := plan(agent.base, elements, instruction, obs);
            var r := PredictAndVerify(agent, elements, judge, plan, instruction, obs);
            r.verification.passed && r.agent.base == p.base
  {
  }

  /** The verifier's conversation is fresh between steps: it starts fresh,
      and a step either leaves it alone or resets it. */
  lemma VerifierStaysFresh(agent: Agent, elements: seq<UIElement>, judge: Judge,
                           plan: Planner, instruction: string, obs: Observation)
    requires agent.verifier == FreshConversation
    ensures PredictAndVerify(agent, elements, judge, plan, instruction, obs).agent.verifier == FreshConversation
  {
  }

  /** The replan flag set by a failed check is what the base agent sees when
      it plans the next step. */
  lemma ReplanReachesNextPlan(agent: Agent, elements: seq<UIElement>, judge: Judge,
                              plan: Planner, instruction: string, obs: Observation,
                              elements2: seq<UIElement>, obs2: Observation)
    requires !PredictAndVerify(agent, elements, judge, plan, instruction, obs).verification.passed
    ensures var r := PredictAndVerify(agent, elements, judge, plan, instruction, obs);
            var next := PredictAndVerify(r.agent, elements2, judge, plan, instruction, obs2);
            next.info == plan(RequestReplan(plan(agent.base, elements, instruction, obs).base),
                              elements2, instruction, obs2).info
  {
  }
}

=== FILE: qa_system.dfy ===
/**
 The earlier form of the QA agent's step, `predict`: the same gate, check
 and replan, but without returning the verification result.
 */
module QaSystem {
  import Json
  import opened Env
  import opened Llm
  import opened Translator
  import opened QaAgent

  /** What `predict` returns, and the agent afterwards. */
  datatype LegacyPrediction = LegacyPrediction(
    info: map<string, Json.Value>,
    actions: seq<AgentAction>,
    agent: Agent)

  /** `predict(instruction, observation)`: plans, checks the subtask when the
      gate opens, and raises the replan flags when the check fails. */
  function Predict(agent: Agent, elements: seq<UIElement>, judge: Judge,
                   plan: Planner, instruction: string, obs: Observation): (r: LegacyPrediction)
    ensures var p := plan(agent.base, elements, instruction, obs);
            && r.info == p.info && r.actions == p.actions
            && (!ShouldVerify(p) ==> r.agent == Agent(p.base, agent.verifier))
            && (ShouldVerify(p) ==>
                  && r.agent.verifier == FreshConversation
                  && (Check(agent, judge, p, obs).passed ==> r.agent.base == p.base)
                  && (!Check(agent, judge, p, obs).passed ==> r.agent.base == RequestReplan(p.base)))
  {
    var p := plan(agent.base, elements, instruction, obs);
    if ShouldVerify(p) then
      var o := Check(agent, judge, p, obs);
      if !o.passed then LegacyPrediction(p.info, p.actions, Agent(RequestReplan(p.base), o.conversation))
      else LegacyPrediction(p.info, p.actions, Agent(p.base, o.conversation))
    else
      LegacyPrediction(p.info, p.actions, Agent(p.base, agent.verifier))
  }

  /** The two versions agree on everything `predict` returns and on the agent
      they leave behind; the newer one only adds the verification result. */
  lemma PredictAgreesWithPredictAndVerify(agent: Agent, elements: seq<UIElement>, judge: Judge,
                                          plan: Planner, instruction: string, obs: Observation)
    ensures var legacy := Predict(agent, elements, judge, plan, instruction, obs);
            var r := PredictAndVerify(agent, elements, judge, plan, instruction, obs);
            legacy == LegacyPrediction(r.info, r.actions, r.agent)
  {
  }
}

=== FILE: run_loop.dfy ===
/**
 The test driver: up to twenty steps of plan, verify and execute, a log entry
 and a screenshot for every executed step, and a supervisor report over the
 trace when anything was logged.
 */
module RunLoop {
  import opened Wrappers
  import Json
  import opened Env
  import opened Llm
  import opened Translator
  import opened QaAgent
  import Supervisor

  /** The step budget of one run. */
  const MaxSteps: nat := 20

  /** The goal the run pursues. */
  const Goal: string := "Test turning Wi-Fi on and off"

  /** What executing an action does: it raises (in the environment, or because
      the action is not a valid action dictionary), returns the new state, or
      returns `None`, after which the state is fetched. */
  datatype ExecOutcome = Crashed | Returned(state: EnvState) | ReturnedNone(fetched: EnvState)

  /** The environment's `execute_action` at a given (zero-based) step. */
  type Executor = (nat, DeviceAction) -> ExecOutcome

  /** The state the run continues from after a successful execution. */
  function StateAfter(o: ExecOutcome): EnvState
    requires !o.Crashed?
  {
    match o
    case Returned(s) => s
    case ReturnedNone(s) => s
  }

  /** A `step_log` entry. */
  datatype StepLog = StepLog(
    step: nat,
    subtask: Json.Value,
    proposedAction: AgentAction,
    verificationPassed: bool,
    verificationReason: Json.Value)

  /** How the loop ended: a "DONE" proposal, an action that failed to
      execute, or the step budget running out. */
  datatype Exit = FinishedDone | ExecutionFailed | StepsExhausted

  /** The loop's variables: the (zero-based) step index, the agent, the
      current observation and the translator's UI elements. */
  datatype Loop = Loop(step: nat, agent: Agent, observation: Observation, elements: seq<UIElement>)

  /** The agent's step as the loop calls it: `predict_and_verify` with the
      run's goal as the instruction, on the current UI elements and observation. */
  type AgentStep = (Agent, seq<UIElement>, Observation) -> Prediction

  /** The run's collaborators: the agent's step and the environment. */
  datatype Setup = Setup(predict: AgentStep, execute: Executor)

  /** The collaborators of `main`: the QA agent's `predict_and_verify` over
      the given planner and verifier, and the environment. */
  function QaSetup(judge: Judge, plan: Planner, execute: Executor): Setup {
    Setup((a: Agent, e: seq<UIElement>, o: Observation) => PredictAndVerify(a, e, judge, plan, Goal, o), execute)
  }

  /** A step that leaves a fresh verifier fresh. */
  ghost predicate KeepsVerifierFresh(setup: Setup) {
    forall a: Agent, e: seq<UIElement>, o: Observation ::
      a.verifier == FreshConversation ==> setup.predict(a, e, o).agent.verifier == FreshConversation
  }

  /** The loop from some step on: how it ended; its variables at the start of
      the pass that ended it (after the last step, when the budget ran out);
      the variables at the start of every logged step; and the entries and
      screenshots it appended, in order. */
  datatype Run = Run(exit: Exit, last: Loop, visited: seq<Loop>, logs: seq<StepLog>, screenshots: seq<Png>)

  /** `actions[0] if actions else "DONE"`. */
  function Proposed(actions: seq<AgentAction>): (a: AgentAction)
    ensures |actions| > 0 ==> a == actions[0]
    ensures |actions| == 0 ==> a == Done
    ensures a == Done <==> |actions| == 0 || actions[0] == Done
  {
    if |actions| > 0 then actions[0] else Done
  }

  /** The translator's elements agree with the observation the agent sees. */
  predicate InSync(st: Loop) {
    st.observation.uiElements.Some? && st.observation.uiElements.value == st.elements
  }

  /** What `predict_and_verify` returns in the pass that starts at `st`. */
  function PredictionAt(setup: Setup, st: Loop): Prediction {
    setup.predict(st.agent, st.elements, st.observation)
  }

  /** The action the pass that starts at `st` proposes. */
  function ProposalAt(setup: Setup, st: Loop): AgentAction {
    Proposed(PredictionAt(setup, st).actions)
  }

  /** The pass that starts at `st` gets through `execute_action`: it proposes
      an action dictionary and executing it does not raise. */
  predicate Executes(setup: Setup, st: Loop) {
    ProposalAt(setup, st).Device? && !setup.execute(st.step, ProposalAt(setup, st).action).Crashed?
  }

  /** The `step_log` entry for step index `i`. */
  function Entry(i: nat, pr: Prediction): (e: StepLog)
    requires |pr.actions| > 0
    ensures e.step == i + 1 && e.proposedAction == pr.actions[0]
    ensures e.subtask == Subtask(pr.info)
    ensures e.verificationPassed == pr.verification.passed && e.verificationReason == pr.verification.reason
  {
    StepLog(i + 1, Subtask(pr.info), pr.actions[0], pr.verification.passed, pr.verification.reason)
  }

  /** The pass that starts at `st` executed its proposal, logged `entry` for
      it with the screenshot `shot` of the state the execution produced, and
      left the loop at `next`: the following step index, the agent the
      prediction returned, and the produced state's observation and elements. */
  predicate Logged(setup: Setup, st: Loop, entry: StepLog, shot: Png, next: Loop) {
    && Executes(setup, st)
    && var pr := PredictionAt(setup, st);
       var s := StateAfter(setup.execute(st.step, ProposalAt(setup, st).action));
       && entry == Entry(st.step, pr)
       && shot == s.screenshot
       && next == Loop(st.step + 1, pr.agent, ObservationOf(s), s.uiElements)
  }

  /** One pass of the loop body: it stops, or it logs an entry and a
      screenshot and moves on to the next step index with new variables. */
  datatype Pass = Stop(exit: Exit, st: Loop) | Continue(entry: StepLog, shot: Png, st: Loop)

  /** One pass: plan and verify, stop on "DONE" or on an action that fails to
      execute, otherwise log the step and continue from the state it produced. */
  function StepAt(setup: Setup, st: Loop): (p: Pass)
    ensures p.Continue? <==> Executes(setup, st)
    ensures p.Continue? ==> Logged(setup, st, p.entry, p.shot, p.st)
    ensures p.Continue? ==> InSync(p.st) && p.st.observation.screenshot == p.shot
    ensures p.Stop? ==> p.st == st && p.exit != StepsExhausted
    ensures p.Stop? ==> (p.exit == FinishedDone <==> ProposalAt(setup, st) == Done)
  {
    var pr := setup.predict(st.agent, st.elements, st.observation);
    var action := Proposed(pr.actions);
    if action == Done then Stop(FinishedDone, st)
    else
      match action
      case Marker(_) => Stop(ExecutionFailed, st)
      case Device(a) =>
        var o := setup.execute(st.step, a);
        if o.Crashed? then Stop(ExecutionFailed, st)
        else
          var s := StateAfter(o);
          Continue(Entry(st.step, pr), s.screenshot, Loop(st.step + 1, pr.agent, ObservationOf(s), s.uiElements))
  }

  /** The loop from the current step index on: at most one entry, with one
      screenshot and one starting state, per remaining step. */
  function RunFrom(setup: Setup, st: Loop): (r: Run)
    requires st.step <= MaxSteps
    ensures |r.logs| == |r.screenshots| == |r.visited| <= MaxSteps - st.step
    ensures r.last.step == st.step + |r.logs|
    ensures InSync(st) ==> InSync(r.last)
    decreases MaxSteps - st.step
  {
    if st.step == MaxSteps then Run(StepsExhausted, st, [], [], [])
    else
      match StepAt(setup, st)
      case Stop(e, s) => Run(e, s, [], [], [])
      case Continue(entry, shot, s) =>
        var r := RunFrom(setup, s);
        r.(visited := [st] + r.visited, logs := [entry] + r.logs, screenshots := [shot] + r.screenshots)
  }

  /** How a run ends is decided by the pass it ends at: the budget is
      exhausted exactly when that pass would be the twenty-first; otherwise
      the run finished on "DONE" exactly when that pass proposed "DONE", and
      failed exactly when it proposed something else that did not execute. */
  lemma {:induction false} RunFromEnds(setup: Setup, st: Loop)
    requires st.step <= MaxSteps
    ensures var r := RunFrom(setup, st);
            && (r.exit == StepsExhausted <==> r.last.step == MaxSteps)
            && (r.exit == StepsExhausted <==> |r.logs| == MaxSteps - st.step)
            && (r.exit == FinishedDone <==> r.last.step < MaxSteps && ProposalAt(setup, r.last) == Done)
            && (r.exit == ExecutionFailed <==>
                  r.last.step < MaxSteps && ProposalAt(setup, r.last) != Done && !Executes(setup, r.last))
    decreases MaxSteps - st.step
  {
    if st.step < MaxSteps {
      match StepAt(setup, st)
      case Stop(e, s) =>
      case Continue(entry, shot, s) => RunFromEnds(setup, s);
    }
  }

  /** The loop state after logged step `k`: the start of the next logged
      step, or the state the run ended at. */
  function Following(r: Run, k: nat): Loop
    requires k < |r.visited|
  {
    if k + 1 < |r.visited| then r.visited[k + 1] else r.last
  }

  /** The logged steps of `r` form a chain of passes from step index `from`
      on: logged step `k` started at index `from + k`, executed the action
      proposed there, logged that prediction's entry and the produced
      screenshot, and led to the next logged step's starting state (or to the
      state the run ended at). */
  predicate Chain(setup: Setup, r: Run, from: nat) {
    && |r.visited| == |r.logs| == |r.screenshots|
    && forall k :: 0 <= k < |r.logs| ==>
         && r.visited[k].step == from + k
         && Logged(setup, r.visited[k], r.logs[k], r.screenshots[k], Following(r, k))
  }

  lemma ConsIndex<T>(x: T, s: seq<T>, k: int)
    requires 1 <= k <= |s|
    ensures ([x] + s)[k] == s[k - 1]
  {
  }

  /** Putting a logged pass in front of a chain that starts where the pass
      leads gives a chain one step longer. */
  lemma ChainCons(setup: Setup, st: Loop, entry: StepLog, shot: Png, r: Run)
    requires Chain(setup, r, st.step + 1)
    requires Logged(setup, st, entry, shot, if |r.visited| > 0 then r.visited[0] else r.last)
    ensures Chain(setup, r.(visited := [st] + r.visited, logs := [entry] + r.logs,
                            screenshots := [shot] + r.screenshots), st.step)
  {
    var c := r.(visited := [st] + r.visited, logs := [entry] + r.logs, screenshots := [shot] + r.screenshots);
    assert Following(c, 0) == (if |r.visited| > 0 then r.visited[0] else r.last);
    forall k | 1 <= k < |c.logs|
      ensures c.visited[k].step == st.step + k
      ensures Logged(setup, c.visited[k], c.logs[k], c.screenshots[k], Following(c, k))
    {
      ConsIndex(st, r.visited, k);
      ConsIndex(entry, r.logs, k);
      ConsIndex(shot, r.screenshots, k);
      assert Following(c, k) == Following(r, k - 1);
    }
  }

  /** The run is the chain of its passes, starting at `st`. */
  lemma {:induction false} RunFromTrace(setup: Setup, st: Loop)
    requires st.step <= MaxSteps
    ensures |RunFrom(setup, st).visited| == 0 ==> RunFrom(setup, st).last == st
    ensures |RunFrom(setup, st).visited| > 0 ==> RunFrom(setup, st).visited[0] == st
    ensures Chain(setup, RunFrom(setup, st), st.step)
    decreases MaxSteps - st.step
  {
    if st.step < MaxSteps {
      match StepAt(setup, st)
      case Stop(e, s) =>
      case Continue(entry, shot, s) =>
        RunFromTrace(setup, s);
        ChainCons(setup, st, entry, shot, RunFrom(setup, s));
    }
  }

  /** A step that keeps a fresh verifier fresh keeps it fresh for the whole run. */
  lemma {:induction false} RunFromKeepsVerifierFresh(setup: Setup, st: Loop)
    requires st.step <= MaxSteps
    requires KeepsVerifierFresh(setup) && st.agent.verifier == FreshConversation
    ensures RunFrom(setup, st).last.agent.verifier == FreshConversation
    ensures forall k :: 0 <= k < |RunFrom(setup, st).visited| ==>
              RunFrom(setup, st).visited[k].agent.verifier == FreshConversation
    decreases MaxSteps - st.step
  {
    if st.step < MaxSteps {
      match StepAt(setup, st)
      case Stop(e, s) =>
      case Continue(entry, shot, s) =>
        RunFromKeepsVerifierFresh(setup, s);
        var r := RunFrom(setup, s);
        forall k | 1 <= k < |r.visited| + 1
          ensures ([st] + r.visited)[k].agent.verifier == FreshConversation
        {
          ConsIndex(st, r.visited, k);
        }
    }
  }

  /** Every pass of the run starts with the translator's elements in sync
      with the observation the agent sees. */
  lemma {:induction false} RunFromStaysInSync(setup: Setup, st: Loop)
    requires st.step <= MaxSteps && InSync(st)
    ensures forall k :: 0 <= k < |RunFrom(setup, st).visited| ==> InSync(RunFrom(setup, st).visited[k])
    decreases MaxSteps - st.step
  {
    if st.step < MaxSteps {
      match StepAt(setup, st)
      case Stop(e, s) =>
      case Continue(entry, shot, s) =>
        RunFromStaysInSync(setup, s);
        var r := RunFrom(setup, s);
        forall k | 1 <= k < |r.visited| + 1
          ensures InSync(([st] + r.visited)[k])
        {
          ConsIndex(st, r.visited, k);
        }
    }
  }

  /** After a run that logged anything, the observation shows the last
      screenshot logged; after one that logged nothing, it is the one the
      run started from. */
  lemma {:induction false} RunFromShowsLastShot(setup: Setup, st: Loop)
    requires st.step <= MaxSteps
    ensures var r := RunFrom(setup, st);
            && (|r.screenshots| > 0 ==> r.last.observation.screenshot == r.screenshots[|r.screenshots| - 1])
            && (|r.screenshots| == 0 ==> r.last.observation == st.observation)
    decreases MaxSteps - st.step
  {
    if st.step < MaxSteps {
      match StepAt(setup, st)
      case Stop(e, s) =>
      case Continue(entry, shot, s) => RunFromShowsLastShot(setup, s);
    }
  }

  /** The supervisor's collaborators: `str` of a log entry, the model, `json.loads`.
      It has the shape of `QaAgent.Judge`, but renders step logs rather than
      UI elements. */
  datatype Reviewer = Reviewer(show: StepLog -> string, llm: Model, decode: Decoder)

  /** The outcome of `main` after the environment is up: the run, the
      supervisor's report if one was asked for, and the banner's verdict. */
  datatype TestRun = TestRun(run: Run, report: Option<Json.Value>, successful: bool)

  /** The loop's starting point: the reset state's observation and the same
      UI elements handed to the translator. */
  function Start(agent: Agent, initial: EnvState): (st: Loop)
    ensures st.step == 0 && InSync(st) && st.agent == agent && st.observation.screenshot == initial.screenshot
    ensures st.observation == ObservationOf(initial) && st.elements == initial.uiElements
  {
    Loop(0, agent, ObservationOf(initial), initial.uiElements)
  }

  /** `main` from the environment reset on: the loop from step index 0 with
      empty logs, then the supervisor when anything was logged. */
  function RunTest(setup: Setup, reviewer: Reviewer, agent: Agent, initial: EnvState): (t: TestRun)
    ensures t.run == RunFrom(setup, Start(agent, initial))
    ensures t.successful <==> t.run.exit == FinishedDone
    ensures t.successful <==> t.run.last.step < MaxSteps && ProposalAt(setup, t.run.last) == Done
    ensures t.report.Some? <==> |t.run.logs| > 0
    ensures t.report.Some? ==>
              t.report.value == Supervisor.AnalyzeTrace(FreshConversation, Goal, t.run.logs,
                                  t.run.screenshots, reviewer.show, reviewer.llm, reviewer.decode).report
  {
    RunFromEnds(setup, Start(agent, initial));
    var run := RunFrom(setup, Start(agent, initial));
    var report :=
      if |run.logs| > 0 then
        Some(Supervisor.AnalyzeTrace(FreshConversation, Goal, run.logs, run.screenshots,
                                     reviewer.show, reviewer.llm, reviewer.decode).report)
      else None;
    TestRun(run, report, run.exit == FinishedDone)
  }

  /** The final banner. */
  function Banner(t: TestRun): string {
    "--- Test " + (if t.successful then "Successful" else "Failed") + " ---"
  }

  /** Whole-run guarantees: at most twenty steps are logged, one screenshot
      each, and the budget is used up exactly when all twenty were; the run
      starts from the reset state; entry `k` is the `step_log` of the
      prediction made at step index `k`, whose action executed, and comes
      with the screenshot of the state that execution produced. */
  lemma RunShape(setup: Setup, agent: Agent, initial: EnvState)
    ensures var run := RunFrom(setup, Start(agent, initial));
            && |run.logs| <= MaxSteps
            && |run.screenshots| == |run.logs|
            && (run.exit == StepsExhausted <==> |run.logs| == MaxSteps)
            && (|run.visited| > 0 ==> run.visited[0] == Start(agent, initial))
    ensures Chain(setup, RunFrom(setup, Start(agent, initial)), 0)
    ensures forall k :: 0 <= k < |RunFrom(setup, Start(agent, initial)).logs| ==>
              RunFrom(setup, Start(agent, initial)).logs[k]
              == Entry(k, PredictionAt(setup, RunFrom(setup, Start(agent, initial)).visited[k]))
  {
    var st := Start(agent, initial);
    RunFromEnds(setup, st);
    RunFromTrace(setup, st);
  }

  /** A successful run ended at a pass that proposed "DONE", before the
      budget ran out; an unsuccessful one used up the budget or ended at a
      pass whose proposal was not "DONE" and did not execute. */
  lemma SuccessWithinBudget(setup: Setup, reviewer: Reviewer, agent: Agent, initial: EnvState)
    ensures var t := RunTest(setup, reviewer, agent, initial);
            && (t.successful ==> |t.run.logs| < MaxSteps && ProposalAt(setup, t.run.last) == Done)
            && (!t.successful ==>
                  || |t.run.logs| == MaxSteps
                  || (ProposalAt(setup, t.run.last) != Done && !Executes(setup, t.run.last)))
  {
    RunFromEnds(setup, Start(agent, initial));
  }

  /** The supervisor only reports: its answer never changes the run or the
      verdict. */
  lemma VerdictIgnoresSupervisor(setup: Setup, reviewer1: Reviewer, reviewer2: Reviewer,
                                 agent: Agent, initial: EnvState)
    ensures var t1 := RunTest(setup, reviewer1, agent, initial);
            var t2 := RunTest(setup, reviewer2, agent, initial);
            t1.run == t2.run && t1.successful == t2.successful
            && Banner(t1) == Banner(t2)
  {
  }

  /** A first proposal of "DONE" (or of nothing) ends a successful run
      with no logs and no report. */
  lemma ImmediateDone(setup: Setup, reviewer: Reviewer, agent: Agent, initial: EnvState)
    requires var st := Start(agent, initial);
             Proposed(setup.predict(agent, st.elements, st.observation).actions) == Done
    ensures var t := RunTest(setup, reviewer, agent, initial);
            t.successful && t.run.logs == [] && t.report.None?
            && Banner(t) == "--- Test Successful ---"
  {
  }

  /** A proposal that is a bare string other than "DONE" cannot be turned
      into an action: the run stops as failed, logging nothing, without
      calling the environment. */
  lemma MarkerFailsRun(setup: Setup, st: Loop, word: string)
    requires st.step < MaxSteps
    requires word != DoneMarker
    requires var actions := setup.predict(st.agent, st.elements, st.observation).actions;
             |actions| > 0 && actions[0] == Marker(word)
    ensures RunFrom(setup, st).exit == ExecutionFailed && RunFrom(setup, st).logs == []
  {
  }

  /** The QA agent's step leaves a fresh verifier fresh. */
  lemma QaSetupKeepsVerifierFresh(judge: Judge, plan: Planner, execute: Executor)
    ensures KeepsVerifierFresh(QaSetup(judge, plan, execute))
  {
    var setup := QaSetup(judge, plan, execute);
    forall a: Agent, e: seq<UIElement>, o: Observation | a.verifier == FreshConversation
      ensures setup.predict(a, e, o).agent.verifier == FreshConversation
    {
      VerifierStaysFresh(a, e, judge, plan, Goal, o);
    }
  }

  /** In the run of `main`, at the start of every logged step and of the pass
      that ended the run, the translator resolves descriptive clicks against
      the elements of the observation the agent plans from and the verifier
      is fresh; and the last observation shows the last logged screenshot
      (or the reset state's, when nothing was logged). */
  lemma RunKeepsInvariants(judge: Judge, plan: Planner, execute: Executor, agent: Agent, initial: EnvState)
    requires agent.verifier == FreshConversation
    ensures var run := RunFrom(QaSetup(judge, plan, execute), Start(agent, initial));
            && InSync(run.last) && run.last.agent.verifier == FreshConversation
            && (forall k :: 0 <= k < |run.visited| ==>
                  InSync(run.visited[k]) && run.visited[k].agent.verifier == FreshConversation)
            && (|run.screenshots| > 0 ==> run.last.observation.screenshot == run.screenshots[|run.screenshots| - 1])
            && (|run.screenshots| == 0 ==> run.last.observation.screenshot == initial.screenshot)
  {
    var setup := QaSetup(judge, plan, execute);
    QaSetupKeepsVerifierFresh(judge, plan, execute);
    RunFromKeepsVerifierFresh(setup, Start(agent, initial));
    RunFromStaysInSync(setup, Start(agent, initial));
    RunFromShowsLastShot(setup, Start(agent, initial));
  }
}

=== FILE: supervisor.dfy ===
/**
 The supervisor agent: renders a finished run's logs as a numbered trace,
 sends it with the screenshots to the language model, and returns the
 decoded report, or a fixed error report when the answer cannot be read.
 */
module Supervisor {
  import opened Wrappers
  import opened Text
  import Json
  import opened Env
  import opened Llm

  const ReportFailure: string := "Failed to generate a valid report from the LLM."

  /** The report returned when the model's answer cannot be read. */
  const ErrorReport: Json.Value := Json.Obj(map["error" := Json.Str(ReportFailure)])

  /** What `analyze_trace` returns, and the conversation it leaves behind. */
  datatype Analysis = Analysis(report: Json.Value, conversation: Conversation)

  /** The prefix of the trace line for the log at (zero-based) position `i`. */
  function StepLabel(i: nat): string {
    "Step " + NatToDecimal(i + 1) + ": "
  }

  /** One line per log, numbered from 1, each log rendered by `show` (`str`). */
  function TraceLines<L>(logs: seq<L>, show: L -> string): (lines: seq<string>)
    ensures |lines| == |logs|
  {
    seq(|logs|, i requires 0 <= i < |logs| => StepLabel(i) + show(logs[i]))
  }

  function TraceText<L>(logs: seq<L>, show: L -> string): string {
    Join("\n", TraceLines(logs, show))
  }

  /** `analyze_trace(goal, logs, screenshots)` on a supervisor whose agent holds
      `conversation`. The prompt and the screenshots are appended and the
      model answers the whole history; the agent is never reset. */
  function AnalyzeTrace<L>(conversation: Conversation, goal: string, logs: seq<L>,
                           screenshots: seq<Png>, show: L -> string,
                           llm: Model, decode: Decoder): (r: Analysis)
    ensures |r.conversation| == |conversation| + 1
    ensures r.conversation[..|conversation|] == conversation
    ensures r.conversation[|conversation|]
            == Message("user", SupervisorPrompt(goal, TraceText(logs, show)), screenshots)
    ensures Answer(llm(r.conversation), decode).Some? ==>
              r.report == Answer(llm(r.conversation), decode).value
    ensures Answer(llm(r.conversation), decode).None? ==> r.report == ErrorReport
  {
    var request := conversation + [Message("user", SupervisorPrompt(goal, TraceText(logs, show)), screenshots)];
    match Answer(llm(request), decode)
    case Some(report) => Analysis(report, request)
    case None => Analysis(ErrorReport, request)
  }

  /** The error report is what comes back exactly when the answer could not
      be read, or when the model itself answered with that very object: the
      caller cannot tell the two apart. */
  lemma ErrorReportIff<L>(conversation: Conversation, goal: string, logs: seq<L>,
                          screenshots: seq<Png>, show: L -> string,
                          llm: Model, decode: Decoder)
    ensures var r := AnalyzeTrace(conversation, goal, logs, screenshots, show, llm, decode);
            var answer := Answer(llm(r.conversation), decode);
            r.report == ErrorReport <==> answer.None? || answer == Some(ErrorReport)
  {
  }

  /** Unlike the verifier, the supervisor keeps its history: a second
      analysis sends the model both prompts. */
  lemma HistoryAccumulates<L>(goal1: string, logs1: seq<L>, shots1: seq<Png>,
                              goal2: string, logs2: seq<L>, shots2: seq<Png>,
                              show: L -> string, llm: Model, decode: Decoder)
    ensures var first := AnalyzeTrace(FreshConversation, goal1, logs1, shots1, show, llm, decode);
            var second := AnalyzeTrace(first.conversation, goal2, logs2, shots2, show, llm, decode);
            second.conversation
            == [Message("user", SupervisorPrompt(goal1, TraceText(logs1, show)), shots1),
                Message("user", SupervisorPrompt(goal2, TraceText(logs2, show)), shots2)]
  {
    var first := AnalyzeTrace(FreshConversation, goal1, logs1, shots1, show, llm, decode);
    var second := AnalyzeTrace(first.conversation, goal2, logs2, shots2, show, llm, decode);
    assert |first.conversation| == 1;
    assert second.conversation == first.conversation + [second.conversation[1]];
  }

  lemma StepLabelShape(i: nat)
    ensures var head := StepLabel(i);
            var digits := NatToDecimal(i + 1);
            |head| == |digits| + 7
            && head[..5] == "Step "
            && head[5..|head| - 2] == digits
            && head[|head| - 2..] == ": "
            && '\n' !in head
  {
    var digits := NatToDecimal(i + 1);
    var head := StepLabel(i);
    assert head == "Step " + digits + ": ";
    assert head[5..|head| - 2] == digits;
    forall j | 0 <= j < |head|
      ensures head[j] != '\n'
    {
      if 5 <= j < |head| - 2 {
        assert head[j] == digits[j - 5];
        assert IsDigit(digits[j - 5]);
      }
    }
  }

  /** One trace line: its head, the number in it, and the rendered log after it. */
  lemma TraceLineShape<L>(logs: seq<L>, show: L -> string, i: nat)
    requires i < |logs| && '\n' !in show(logs[i])
    ensures var line := TraceLines(logs, show)[i];
            && '\n' !in line
            && line[..5] == "Step "
            && line[5..|StepLabel(i)| - 2] == NatToDecimal(i + 1)
            && ParseInt(line[5..|StepLabel(i)| - 2]) == Some(i + 1)
            && line[|StepLabel(i)| - 2..|StepLabel(i)|] == ": "
            && line[|StepLabel(i)|..] == show(logs[i])
  {
    var line := TraceLines(logs, show)[i];
    StepLabelShape(i);
    var head := StepLabel(i);
    assert line == head + show(logs[i]);
    assert line[..5] == head[..5];
    assert line[5..|head| - 2] == head[5..|head| - 2];
    assert line[|head| - 2..|head|] == head[|head| - 2..];
    ParseIntOfDecimal(i + 1);
    forall j | 0 <= j < |line|
      ensures line[j] != '\n'
    {
      if j < |head| {
        assert line[j] == head[j];
      } else {
        assert line[j] == show(logs[i])[j - |head|];
      }
    }
  }

  /** The trace splits back into its lines when no rendered log spans lines
      (Python's `str` of a dictionary escapes newlines), and the number in
      each line's head reads back as its one-based position. */
  lemma TraceRoundTrip<L>(logs: seq<L>, show: L -> string)
    requires |logs| >= 1
    requires forall i :: 0 <= i < |logs| ==> '\n' !in show(logs[i])
    ensures SplitOn(TraceText(logs, show), '\n') == TraceLines(logs, show)
    ensures forall i :: 0 <= i < |logs| ==>
              var line := TraceLines(logs, show)[i];
              && line[..5] == "Step "
              && line[5..|StepLabel(i)| - 2] == NatToDecimal(i + 1)
              && ParseInt(line[5..|StepLabel(i)| - 2]) == Some(i + 1)
              && line[|StepLabel(i)| - 2..|StepLabel(i)|] == ": "
              && line[|StepLabel(i)|..] == show(logs[i])
  {
    var lines := TraceLines(logs, show);
    forall i | 0 <= i < |logs|
      ensures '\n' !in lines[i]
      ensures lines[i][..5] == "Step "
      ensures lines[i][5..|StepLabel(i)| - 2] == NatToDecimal(i + 1)
      ensures ParseInt(lines[i][5..|StepLabel(i)| - 2]) == Some(i + 1)
      ensures lines[i][|StepLabel(i)| - 2..|StepLabel(i)|] == ": "
      ensures lines[i][|StepLabel(i)|..] == show(logs[i])
    {
      TraceLineShape(logs, show, i);
    }
    SplitOnJoin(lines, '\n');
  }
}

=== FILE: text.dfy ===
/**
 The Python string operations the core relies on, over ASCII: `str.lower`,
 `str.upper`, `str.strip`, `str.split()`, `str.split(sep)`, `sep.join`,
 `str.replace(pattern, "")`, the `in` substring test, `str(int)` and `int(str)`.
 */
module Text {
  import opened Wrappers

  /** Python's `str.isspace` on ASCII: space, \t \n \v \f \r and the separators \x1c-\x1f. */
  predicate IsSpace(c: char) {
    c == ' ' || ('\t' <= c <= '\r') || ('\U{1C}' <= c <= '\U{1F}')
  }

  predicate AllSpace(s: string) {
    forall i :: 0 <= i < |s| ==> IsSpace(s[i])
  }

  predicate NoSpace(s: string) {
    forall i :: 0 <= i < |s| ==> !IsSpace(s[i])
  }

  /** A token as `str.split()` yields it: non-empty and free of whitespace. */
  predicate IsWord(w: string) {
    |w| > 0 && NoSpace(w)
  }

  // ---------------------------------------------------------------------------
  // Case mapping
  // ---------------------------------------------------------------------------

  function LowerChar(c: char): char {
    if 'A' <= c <= 'Z' then (c as int + 32) as char else c
  }

  function UpperChar(c: char): char {
    if 'a' <= c <= 'z' then (c as int - 32) as char else c
  }

  /** `s.lower()`: maps every letter to lower case and keeps whitespace where it was. */
  function Lower(s: string): (r: string)
    ensures |r| == |s|
    ensures forall i :: 0 <= i < |s| ==> r[i] == LowerChar(s[i])
    ensures forall i :: 0 <= i < |s| ==> (IsSpace(r[i]) <==> IsSpace(s[i]))
  {
    if s == [] then [] else [LowerChar(s[0])] + Lower(s[1..])
  }

  /** Lower-casing twice is lower-casing once. */
  lemma LowerIdempotent(s: string)
    ensures Lower(Lower(s)) == Lower(s)
  {
    var l := Lower(s);
    assert forall i :: 0 <= i < |s| ==> Lower(l)[i] == LowerChar(l[i]) == l[i];
  }

  /** `s.upper()`. */
  function Upper(s: string): (r: string)
    ensures |r| == |s|
    ensures forall i :: 0 <= i < |s| ==> r[i] == UpperChar(s[i])
  {
    if s == [] then [] else [UpperChar(s[0])] + Upper(s[1..])
  }

  // ---------------------------------------------------------------------------
  // strip()
  // ---------------------------------------------------------------------------

  /** Index of the first non-whitespace character at or after `i`, or `|s|`. */
  function SkipSpaces(s: string, i: nat): (k: nat)
    requires i <= |s|
    ensures i <= k <= |s|
    ensures forall j :: i <= j < k ==> IsSpace(s[j])
    ensures k == |s| || !IsSpace(s[k])
    decreases |s| - i
  {
    if i < |s| && IsSpace(s[i]) then SkipSpaces(s, i + 1) else i
  }

  /** Number of leading whitespace characters. */
  function LeadingSpaces(s: string): (k: nat)
    ensures k <= |s|
    ensures forall i :: 0 <= i < k ==> IsSpace(s[i])
    ensures k == |s| || !IsSpace(s[k])
  {
    SkipSpaces(s, 0)
  }

  /** Index where the whitespace that ends `s[lo..hi]` begins. */
  function TrailingStart(s: string, lo: nat, hi: nat): (e: nat)
    requires lo <= hi <= |s|
    ensures lo <= e <= hi
    ensures forall j :: e <= j < hi ==> IsSpace(s[j])
    ensures e == lo || !IsSpace(s[e - 1])
    decreases hi
  {
    if lo < hi && IsSpace(s[hi - 1]) then TrailingStart(s, lo, hi - 1) else hi
  }

  /** `s.strip()`: the infix of `s` between its leading and its trailing whitespace. */
  function Trim(s: string): (r: string)
    ensures r == [] || (!IsSpace(r[0]) && !IsSpace(r[|r| - 1]))
    ensures var k := LeadingSpaces(s);
              k + |r| <= |s| && r == s[k..k + |r|]
              && (forall i :: 0 <= i < k ==> IsSpace(s[i]))
              && (forall i :: k + |r| <= i < |s| ==> IsSpace(s[i]))
  {
    var k := LeadingSpaces(s);
    s[k..TrailingStart(s, k, |s|)]
  }

  /** The leading whitespace is determined by where the first non-space sits. */
  lemma LeadingSpacesIs(s: string, k: nat)
    requires k <= |s|
    requires forall i :: 0 <= i < k ==> IsSpace(s[i])
    requires k == |s| || !IsSpace(s[k])
    ensures LeadingSpaces(s) == k
  {
  }

  /** The trailing whitespace is determined by where the last non-space sits. */
  lemma TrailingStartIs(s: string, lo: nat, e: nat)
    requires lo <= e <= |s|
    requires forall j :: e <= j < |s| ==> IsSpace(s[j])
    requires e == lo || !IsSpace(s[e - 1])
    ensures TrailingStart(s, lo, |s|) == e
  {
  }

  lemma LeadingSpacesOf(pre: string, t: string)
    requires AllSpace(pre)
    requires t == [] || !IsSpace(t[0])
    ensures LeadingSpaces(pre + t) == |pre|
  {
    var s := pre + t;
    assert forall i :: 0 <= i < |pre| ==> s[i] == pre[i];
    LeadingSpacesIs(s, |pre|);
  }

  /** `strip()` removes exactly the surrounding whitespace: whatever sits between
      two runs of whitespace, and itself starts and ends with a non-space, is
      what comes back. */
  lemma TrimRemovesPadding(pre: string, m: string, post: string)
    requires AllSpace(pre) && AllSpace(post)
    requires m == [] || (!IsSpace(m[0]) && !IsSpace(m[|m| - 1]))
    ensures Trim(pre + m + post) == m
  {
    var s := pre + m + post;
    var lo := |pre|;
    var hi := |pre| + |m|;
    assert forall i :: 0 <= i < lo ==> s[i] == pre[i];
    assert forall i :: hi <= i < |s| ==> s[i] == post[i - hi];
    assert s[lo..hi] == m;
    if m == [] {
      LeadingSpacesIs(s, |s|);
    } else {
      assert s[lo] == m[0] && s[hi - 1] == m[|m| - 1];
      LeadingSpacesIs(s, lo);
      TrailingStartIs(s, lo, hi);
    }
  }

  lemma TrimIdempotent(s: string)
    ensures Trim(Trim(s)) == Trim(s)
  {
    var m := Trim(s);
    assert [] + m + [] == m;
    TrimRemovesPadding([], m, []);
  }

  lemma AllSpaceConcat(a: string, b: string)
    requires AllSpace(a) && AllSpace(b)
    ensures AllSpace(a + b)
  {
    forall j | 0 <= j < |a + b|
      ensures IsSpace((a + b)[j])
    {
      if j < |a| { assert (a + b)[j] == a[j]; } else { assert (a + b)[j] == b[j - |a|]; }
    }
  }

  /** A string is its leading whitespace, its stripped form and its trailing whitespace. */
  lemma TrimDecomposes(x: string)
    ensures var k := LeadingSpaces(x);
            var m := Trim(x);
            && x == x[..k] + m + x[k + |m|..]
            && AllSpace(x[..k]) && AllSpace(x[k + |m|..])
  {
    var k := LeadingSpaces(x);
    var m := Trim(x);
    var p1 := x[..k];
    var p2 := x[k + |m|..];
    assert m == x[k..k + |m|];
    assert p1 + m == x[..k + |m|];
    assert x[..k + |m|] + p2 == x;
    forall j | 0 <= j < |p1| ensures IsSpace(p1[j]) { assert p1[j] == x[j]; }
    forall j | 0 <= j < |p2| ensures IsSpace(p2[j]) { assert p2[j] == x[k + |m| + j]; }
  }

  lemma Regroup(pre: string, p1: string, m: string, p2: string, post: string)
    ensures pre + (p1 + m + p2) + post == (pre + p1) + m + (p2 + post)
  {
  }

  /** Extra whitespace around a string does not change what `strip()` returns. */
  lemma TrimIgnoresPadding(pre: string, x: string, post: string)
    requires AllSpace(pre) && AllSpace(post)
    ensures Trim(pre + x + post) == Trim(x)
  {
    TrimDecomposes(x);
    var k := LeadingSpaces(x);
    var m := Trim(x);
    var p1 := x[..k];
    var p2 := x[k + |m|..];
    AllSpaceConcat(pre, p1);
    AllSpaceConcat(p2, post);
    Regroup(pre, p1, m, p2, post);
    TrimRemovesPadding(pre + p1, m, p2 + post);
  }

  // ---------------------------------------------------------------------------
  // split() and sep.join()
  // ---------------------------------------------------------------------------

  /** Length of the longest whitespace-free prefix. */
  function WordLength(t: string): (n: nat)
    ensures n <= |t| && forall i :: 0 <= i < n ==> !IsSpace(t[i])
    ensures n == |t| || IsSpace(t[n])
  {
    if t == [] || IsSpace(t[0]) then 0 else 1 + WordLength(t[1..])
  }

  /** `s.split()` with no separator: the maximal whitespace-free runs, in order. */
  function Split(s: string): (ws: seq<string>)
    ensures forall i :: 0 <= i < |ws| ==> IsWord(ws[i])
    decreases |s|
  {
    var k := LeadingSpaces(s);
    if k == |s| then []
    else
      var t := s[k..];
      var n := WordLength(t);
      [t[..n]] + Split(t[n..])
  }

  /** `sep.join(xs)`. */
  function Join(sep: string, xs: seq<string>): string {
    if |xs| == 0 then ""
    else if |xs| == 1 then xs[0]
    else xs[0] + sep + Join(sep, xs[1..])
  }

  lemma {:induction false} WordLengthStops(w: string, rest: string)
    requires NoSpace(w)
    requires rest == [] || IsSpace(rest[0])
    ensures WordLength(w + rest) == |w|
  {
    if w == [] {
      assert w + rest == rest;
    } else {
      assert (w + rest)[1..] == w[1..] + rest;
      WordLengthStops(w[1..], rest);
    }
  }

  lemma SplitSkipsSpace(c: char, x: string)
    requires IsSpace(c)
    ensures Split([c] + x) == Split(x)
  {
    var s := [c] + x;
    var k := LeadingSpaces(x);
    assert forall i :: 1 <= i < |s| ==> s[i] == x[i - 1];
    LeadingSpacesIs(s, 1 + k);
    assert s[1 + k..] == x[k..];
  }

  lemma SplitOneWord(w: string, rest: string)
    requires IsWord(w)
    requires rest == [] || IsSpace(rest[0])
    ensures Split(w + rest) == [w] + Split(rest)
  {
    assert LeadingSpaces(w + rest) == 0;
    assert (w + rest)[0..] == w + rest;
    WordLengthStops(w, rest);
    assert (w + rest)[..|w|] == w;
    assert (w + rest)[|w|..] == rest;
  }

  /** Words joined by single spaces split back into the same words. */
  lemma {:induction false} SplitJoinRoundTrip(ws: seq<string>)
    requires forall i :: 0 <= i < |ws| ==> IsWord(ws[i])
    ensures Split(Join(" ", ws)) == ws
  {
    if |ws| == 0 {
    } else if |ws| == 1 {
      SplitOneWord(ws[0], []);
      assert ws[0] + [] == ws[0];
    } else {
      var w := ws[0];
      var rest := Join(" ", ws[1..]);
      assert Split(Join(" ", ws)) == [w] + Split(rest) by {
        assert Join(" ", ws) == w + ([' '] + rest) by {
          assert Join(" ", ws) == w + " " + rest;
        }
        SplitOneWord(w, [' '] + rest);
        SplitSkipsSpace(' ', rest);
      }
      SplitJoinRoundTrip(ws[1..]);
      assert ws == [w] + ws[1..];
    }
  }

  // ---------------------------------------------------------------------------
  // The `in` substring test and replace(pattern, "")
  // ---------------------------------------------------------------------------

  /** `n` occurs in `h` starting at index `i`. */
  predicate OccursAt(h: string, n: string, i: int) {
    0 <= i && i + |n| <= |h| && h[i..i + |n|] == n
  }

  /** `n in h` for strings. */
  function Contains(h: string, n: string): bool
    decreases |h|
  {
    if |n| > |h| then false else h[..|n|] == n || Contains(h[1..], n)
  }

  lemma {:induction false} ContainsIff(h: string, n: string)
    ensures Contains(h, n) <==> exists i :: OccursAt(h, n, i)
    decreases |h|
  {
    if |n| <= |h| {
      if h[..|n|] == n {
        assert OccursAt(h, n, 0);
      } else {
        ContainsIff(h[1..], n);
        if exists j :: OccursAt(h[1..], n, j) {
          var j :| OccursAt(h[1..], n, j);
          assert h[1..][j..j + |n|] == h[j + 1..j + 1 + |n|];
          assert OccursAt(h, n, j + 1);
        }
        if exists i :: OccursAt(h, n, i) {
          var i :| OccursAt(h, n, i);
          assert h[1..][i - 1..i - 1 + |n|] == h[i..i + |n|];
          assert OccursAt(h[1..], n, i - 1);
        }
      }
    }
  }

  /** Every character of a contained needle is a character of the haystack. */
  lemma ContainsKeepsChars(h: string, n: string, j: int)
    requires 0 <= j < |n|
    ensures Contains(h, n) ==> n[j] in h
  {
    ContainsIff(h, n);
    if Contains(h, n) {
      var i :| OccursAt(h, n, i);
      assert h[i..i + |n|][j] == h[i + j];
    }
  }

  /** An occurrence of a whitespace-free needle lies wholly before or wholly
      after any whitespace position `p`. */
  lemma OccurrenceAvoidsSpace(h: string, k: string, i: int, p: int)
    requires NoSpace(k) && OccursAt(h, k, i)
    requires 0 <= p < |h| && IsSpace(h[p])
    ensures p < i || i + |k| <= p
  {
    forall j | i <= j < i + |k|
      ensures !IsSpace(h[j])
    {
      assert h[j] == h[i..i + |k|][j - i] == k[j - i];
    }
  }

  lemma ContainsInLeftOrRight(a: string, b: string, k: string)
    requires Contains(a, k) || Contains(b, k)
    ensures Contains(a + " " + b, k)
  {
    var s := a + " " + b;
    if Contains(a, k) {
      ContainsIff(a, k);
      var i :| OccursAt(a, k, i);
      assert s[i..i + |k|] == a[i..i + |k|];
      assert OccursAt(s, k, i);
    } else {
      ContainsIff(b, k);
      var i :| OccursAt(b, k, i);
      assert s[|a| + 1 + i..|a| + 1 + i + |k|] == b[i..i + |k|];
      assert OccursAt(s, k, |a| + 1 + i);
    }
    ContainsIff(s, k);
  }

  lemma ContainsAcrossSpaceSplits(a: string, b: string, k: string)
    requires NoSpace(k)
    requires Contains(a + " " + b, k)
    ensures Contains(a, k) || Contains(b, k)
  {
    var s := a + " " + b;
    ContainsIff(s, k);
    var i :| OccursAt(s, k, i);
    assert IsSpace(s[|a|]);
    OccurrenceAvoidsSpace(s, k, i, |a|);
    if i + |k| <= |a| {
      assert s[i..i + |k|] == a[i..i + |k|];
      assert OccursAt(a, k, i);
      ContainsIff(a, k);
    } else {
      assert s[i..i + |k|] == b[i - |a| - 1..i - |a| - 1 + |k|];
      assert OccursAt(b, k, i - |a| - 1);
      ContainsIff(b, k);
    }
  }

  /** A whitespace-free needle cannot straddle a space separator: it occurs in
      `a + " " + b` exactly when it occurs in `a` or in `b`. */
  lemma ContainsAcrossSpace(a: string, b: string, k: string)
    requires NoSpace(k)
    ensures Contains(a + " " + b, k) <==> Contains(a, k) || Contains(b, k)
  {
    if Contains(a + " " + b, k) {
      ContainsAcrossSpaceSplits(a, b, k);
    }
    if Contains(a, k) || Contains(b, k) {
      ContainsInLeftOrRight(a, b, k);
    }
  }

  /** `s.replace(p, "")`: every occurrence of `p` found scanning left to right,
      without overlaps, is deleted. */
  function RemoveAll(s: string, p: string): (r: string)
    requires |p| > 0
    ensures |r| <= |s|
    decreases |s|
  {
    if |s| < |p| then s
    else if s[..|p|] == p then RemoveAll(s[|p|..], p)
    else [s[0]] + RemoveAll(s[1..], p)
  }

  /** Removing a pattern that does not occur changes nothing. */
  lemma {:induction false} RemoveAllAbsent(s: string, p: string)
    requires |p| > 0
    requires !Contains(s, p)
    ensures RemoveAll(s, p) == s
    decreases |s|
  {
    if |s| >= |p| {
      RemoveAllAbsent(s[1..], p);
      assert s == [s[0]] + s[1..];
    }
  }

  // ---------------------------------------------------------------------------
  // s.split(c) for a single character c
  // ---------------------------------------------------------------------------

  /** `s.split(c)`: the pieces between occurrences of `c`; never empty. */
  function SplitOn(s: string, c: char): (parts: seq<string>)
    ensures |parts| >= 1
    ensures forall i :: 0 <= i < |parts| ==> c !in parts[i]
  {
    if s == [] then [""]
    else
      var rest := SplitOn(s[1..], c);
      if s[0] == c then [""] + rest else [[s[0]] + rest[0]] + rest[1..]
  }

  lemma JoinConsFirst(sep: string, a: string, x: string, ys: seq<string>)
    ensures Join(sep, [a + x] + ys) == a + Join(sep, [x] + ys)
  {
    if |ys| > 0 {
      assert ([a + x] + ys)[1..] == ys;
      assert ([x] + ys)[1..] == ys;
    }
  }

  /** Joining the pieces of `s.split(c)` with `c` gives back `s`. */
  lemma {:induction false} JoinSplitOn(s: string, c: char)
    ensures Join([c], SplitOn(s, c)) == s
  {
    if s != [] {
      var rest := SplitOn(s[1..], c);
      JoinSplitOn(s[1..], c);
      if s[0] == c {
        assert ([""] + rest)[1..] == rest;
      } else {
        assert rest == [rest[0]] + rest[1..];
        assert SplitOn(s, c) == [[s[0]] + rest[0]] + rest[1..];
        JoinConsFirst([c], [s[0]], rest[0], rest[1..]);
        assert [s[0]] + s[1..] == s;
      }
    }
  }

  lemma {:induction false} SplitOnPrefix(a: string, b: string, c: char)
    requires c !in a
    ensures SplitOn(a + b, c) == [a + SplitOn(b, c)[0]] + SplitOn(b, c)[1..]
  {
    if a == [] {
      assert a + b == b;
      assert a + SplitOn(b, c)[0] == SplitOn(b, c)[0];
      assert SplitOn(b, c) == [SplitOn(b, c)[0]] + SplitOn(b, c)[1..];
    } else {
      var bs := SplitOn(b, c);
      var rest := SplitOn((a + b)[1..], c);
      assert (a + b)[1..] == a[1..] + b;
      SplitOnPrefix(a[1..], b, c);
      assert rest[0] == a[1..] + bs[0];
      assert rest[1..] == bs[1..];
      assert (a + b)[0] == a[0] != c;
      assert SplitOn(a + b, c) == [[a[0]] + rest[0]] + rest[1..];
      assert [a[0]] + (a[1..] + bs[0]) == a + bs[0];
    }
  }

  /** Lines free of `c`, joined with `c`, split back into the same lines. */
  lemma {:induction false} SplitOnJoin(xs: seq<string>, c: char)
    requires |xs| >= 1
    requires forall i :: 0 <= i < |xs| ==> c !in xs[i]
    ensures SplitOn(Join([c], xs), c) == xs
  {
    if |xs| == 1 {
      SplitOnPrefix(xs[0], [], c);
      assert xs[0] + [] == xs[0];
    } else {
      var rest := Join([c], xs[1..]);
      assert Join([c], xs) == xs[0] + ([c] + rest);
      SplitOnPrefix(xs[0], [c] + rest, c);
      assert ([c] + rest)[1..] == rest;
      SplitOnJoin(xs[1..], c);
      assert SplitOn([c] + rest, c) == [""] + xs[1..];
      assert xs[0] + "" == xs[0];
      assert xs == [xs[0]] + xs[1..];
    }
  }

  // ---------------------------------------------------------------------------
  // str(n) and int(s)
  // ---------------------------------------------------------------------------

  predicate IsDigit(c: char) {
    '0' <= c <= '9'
  }

  predicate AllDigits(s: string) {
    forall i :: 0 <= i < |s| ==> IsDigit(s[i])
  }

  function DigitChar(d: nat): (c: char)
    requires d < 10
    ensures IsDigit(c)
  {
    ('0' as int + d) as char
  }

  /** The value of a string of decimal digits. */
  function DecimalValue(s: string): nat
    requires AllDigits(s)
  {
    if s == [] then 0 else DecimalValue(s[..|s| - 1]) * 10 + (s[|s| - 1] as int - '0' as int)
  }

  /** `str(n)` for a natural number: decimal digits without a leading zero. */
  function NatToDecimal(n: nat): (s: string)
    ensures |s| >= 1 && AllDigits(s)
    ensures s[0] == '0' ==> n == 0
  {
    if n < 10 then [DigitChar(n)] else NatToDecimal(n / 10) + [DigitChar(n % 10)]
  }

  lemma {:induction false} DecimalRoundTrip(n: nat)
    ensures DecimalValue(NatToDecimal(n)) == n
  {
    if n >= 10 {
      var s := NatToDecimal(n);
      assert s[..|s| - 1] == NatToDecimal(n / 10);
      DecimalRoundTrip(n / 10);
    }
  }

  /** The whitespace `int()` skips around its digits: space and \t \n \v \f \r.
      Unlike `str.strip`, it does not skip the separators \x1c-\x1f. */
  predicate IsIntSpace(c: char) {
    c == ' ' || ('\t' <= c <= '\r')
  }

  /** The number of leading characters `int()` skips. */
  function IntLead(s: string): (k: nat)
    ensures k <= |s|
    ensures forall i :: 0 <= i < k ==> IsIntSpace(s[i])
    ensures k == |s| || !IsIntSpace(s[k])
  {
    if |s| > 0 && IsIntSpace(s[0]) then 1 + IntLead(s[1..]) else 0
  }

  /** Where the trailing characters `int()` skips begin, looking no lower than `lo`. */
  function IntTrail(s: string, lo: nat): (e: nat)
    requires lo <= |s|
    ensures lo <= e <= |s|
    ensures forall i :: e <= i < |s| ==> IsIntSpace(s[i])
    ensures e == lo || !IsIntSpace(s[e - 1])
    decreases |s|
  {
    if |s| > lo && IsIntSpace(s[|s| - 1]) then IntTrail(s[..|s| - 1], lo) else |s|
  }

  /** The text `int()` reads: `s` without its leading and trailing \t-\r and spaces. */
  function IntCore(s: string): (t: string)
    ensures t == [] || (!IsIntSpace(t[0]) && !IsIntSpace(t[|t| - 1]))
    ensures var k := IntLead(s);
              k + |t| <= |s| && t == s[k..k + |t|]
              && (forall i :: k + |t| <= i < |s| ==> IsIntSpace(s[i]))
  {
    var k := IntLead(s);
    s[k..IntTrail(s, k)]
  }

  /** Decimal digits with single underscores between them, as `int()` accepts
      ("1_000"); no leading, trailing or doubled underscore. */
  predicate IsDigitRun(t: string) {
    |t| > 0 && IsDigit(t[0]) && IsDigit(t[|t| - 1])
    && forall i :: 0 <= i < |t| ==> IsDigit(t[i]) || (t[i] == '_' && i + 1 < |t| && IsDigit(t[i + 1]))
  }

  /** The digits of a run, with its underscores dropped. */
  function DropUnderscores(t: string): (d: string)
    ensures (forall i :: 0 <= i < |t| ==> IsDigit(t[i]) || t[i] == '_') ==> AllDigits(d)
    ensures AllDigits(t) ==> d == t
  {
    if t == [] then [] else (if t[0] == '_' then [] else [t[0]]) + DropUnderscores(t[1..])
  }

  /** The value of a digit run. */
  function RunValue(t: string): nat
    requires IsDigitRun(t)
  {
    RunChars(t);
    DecimalValue(DropUnderscores(t))
  }

  lemma RunChars(t: string)
    requires IsDigitRun(t)
    ensures forall i :: 0 <= i < |t| ==> IsDigit(t[i]) || t[i] == '_'
  {
    forall i | 0 <= i < |t|
      ensures IsDigit(t[i]) || t[i] == '_'
    {
      assert IsDigit(t[i]) || (t[i] == '_' && i + 1 < |t| && IsDigit(t[i + 1]));
    }
  }

  /** `int(s)` for a string: the surrounding \t-\r and spaces are skipped, then
      an optional sign and a digit run; anything else raises ValueError (`None`). */
  function ParseInt(s: string): Option<int> {
    ParseSigned(IntCore(s))
  }

  /** `int(t)` once the surrounding whitespace is skipped. */
  function ParseSigned(t: string): (r: Option<int>)
    ensures r.Some? <==> IsDigitRun(t) || (|t| > 1 && (t[0] == '+' || t[0] == '-') && IsDigitRun(t[1..]))
  {
    if |t| > 0 && (t[0] == '+' || t[0] == '-') then
      if IsDigitRun(t[1..]) then
        var v: int := RunValue(t[1..]);
        Some(if t[0] == '-' then -v else v)
      else None
    else if IsDigitRun(t) then Some(RunValue(t))
    else None
  }

  lemma TrimOfSpaceFree(s: string)
    requires s == [] || (!IsSpace(s[0]) && !IsSpace(s[|s| - 1]))
    ensures Trim(s) == s
  {
    assert [] + s + [] == s;
    TrimRemovesPadding([], s, []);
  }

  /** `int()` skips nothing around a text that starts and ends with a non-space. */
  lemma IntCoreOfBare(s: string)
    requires s == [] || (!IsIntSpace(s[0]) && !IsIntSpace(s[|s| - 1]))
    ensures IntCore(s) == s
  {
  }

  /** A plain run of digits is a digit run worth its decimal value. */
  lemma DigitsAreRun(d: string)
    requires |d| > 0 && AllDigits(d)
    ensures IsDigitRun(d) && RunValue(d) == DecimalValue(d)
  {
    assert IsDigit(d[0]) && IsDigit(d[|d| - 1]);
  }

  /** A bare run of digits reads as its decimal value. */
  lemma ParseIntOfDigits(d: string)
    requires |d| > 0 && AllDigits(d)
    ensures ParseInt(d) == Some(DecimalValue(d))
  {
    DigitsAreRun(d);
    IntCoreOfBare(d);
  }

  /** A minus sign before a run of digits negates its decimal value. */
  lemma ParseIntOfSignedDigits(d: string)
    requires |d| > 0 && AllDigits(d)
    ensures var r := ParseInt("-" + d); r.Some? && r.value == -(DecimalValue(d) as int)
  {
    var m := "-" + d;
    assert m[0] == '-' && m[|m| - 1] == d[|d| - 1] && m[1..] == d;
    DigitsAreRun(d);
    IntCoreOfBare(m);
  }

  /** `int()` ignores spaces and \t-\r around the number, however many. */
  lemma ParseIntIgnoresPadding(pre: string, d: string, post: string)
    requires forall i :: 0 <= i < |pre| ==> IsIntSpace(pre[i])
    requires forall i :: 0 <= i < |post| ==> IsIntSpace(post[i])
    requires |d| > 0 && AllDigits(d)
    ensures ParseInt(pre + d + post) == Some(DecimalValue(d))
  {
    assert IsDigit(d[0]) && IsDigit(d[|d| - 1]);
    PaddedCore(pre, d, post);
    DigitsAreRun(d);
  }

  lemma PaddedCore(pre: string, m: string, post: string)
    requires forall i :: 0 <= i < |pre| ==> IsIntSpace(pre[i])
    requires forall i :: 0 <= i < |post| ==> IsIntSpace(post[i])
    requires |m| > 0 && !IsIntSpace(m[0]) && !IsIntSpace(m[|m| - 1])
    ensures IntCore(pre + m + post) == m
  {
    var s := pre + m + post;
    var lo := |pre|;
    var hi := |pre| + |m|;
    assert s[lo..hi] == m;
    assert forall i :: 0 <= i < lo ==> s[i] == pre[i];
    assert forall i :: hi <= i < |s| ==> s[i] == post[i - hi];
    IntCoreIs(s, lo, hi);
  }

  /** The core `int()` reads is fixed by where the first and last non-spaces sit. */
  lemma IntCoreIs(s: string, lo: nat, hi: nat)
    requires lo < hi <= |s|
    requires forall i :: 0 <= i < lo ==> IsIntSpace(s[i])
    requires forall i :: hi <= i < |s| ==> IsIntSpace(s[i])
    requires !IsIntSpace(s[lo]) && !IsIntSpace(s[hi - 1])
    ensures IntCore(s) == s[lo..hi]
  {
    IntLeadIs(s, lo);
    IntTrailIs(s, lo, hi);
  }

  lemma {:induction false} IntLeadIs(s: string, k: nat)
    requires k < |s|
    requires forall i :: 0 <= i < k ==> IsIntSpace(s[i])
    requires !IsIntSpace(s[k])
    ensures IntLead(s) == k
  {
    if k > 0 {
      IntLeadIs(s[1..], k - 1);
    }
  }

  lemma {:induction false} IntTrailIs(s: string, lo: nat, hi: nat)
    requires lo < hi <= |s|
    requires forall i :: hi <= i < |s| ==> IsIntSpace(s[i])
    requires !IsIntSpace(s[hi - 1])
    ensures IntTrail(s, lo) == hi
  {
    if hi < |s| {
      IntTrailIs(s[..|s| - 1], lo, hi);
    }
  }

  /** Unlike `strip()`, `int()` does not skip the separator characters: a
      coordinate written "\x1c5" strips to "5" but is not a number. */
  lemma ParseIntKeepsSeparators()
    ensures Trim("\U{1C}5") == "5"
    ensures ParseInt("\U{1C}5") == None
  {
    var s := "\U{1C}5";
    assert IsSpace(s[0]) && !IsSpace(s[1]);
    LeadingSpacesIs(s, 1);
    TrailingStartIs(s, 1, 2);
    IntCoreOfBare(s);
  }

  /** `int()` reads an underscore between two runs of digits as a digit
      separator: `int("1_000") == 1000`. */
  lemma ParseIntReadsUnderscores(a: string, b: string)
    requires |a| > 0 && AllDigits(a) && |b| > 0 && AllDigits(b)
    ensures AllDigits(a + b)
    ensures ParseInt(a + "_" + b) == Some(DecimalValue(a + b))
  {
    var t := a + "_" + b;
    UnderscoreJoinIsRun(a, b);
    IntCoreOfBare(t);
    DropOneUnderscore(a, b);
  }

  lemma UnderscoreJoinIsRun(a: string, b: string)
    requires |a| > 0 && AllDigits(a) && |b| > 0 && AllDigits(b)
    ensures var t := a + "_" + b; IsDigitRun(t) && !IsIntSpace(t[0]) && !IsIntSpace(t[|t| - 1])
  {
    var t := a + "_" + b;
    assert t[0] == a[0] && t[|t| - 1] == b[|b| - 1];
    assert IsDigit(a[0]) && IsDigit(b[|b| - 1]);
    forall i | 0 <= i < |t|
      ensures IsDigit(t[i]) || (t[i] == '_' && i + 1 < |t| && IsDigit(t[i + 1]))
    {
      if i < |a| {
        assert t[i] == a[i];
      } else if i == |a| {
        assert t[i + 1] == b[0];
      } else {
        assert t[i] == b[i - |a| - 1];
      }
    }
  }

  /** ... and nowhere else: a doubled, a leading or a trailing underscore
      makes `int()` raise ValueError. */
  lemma ParseIntRejectsStrayUnderscores(a: string, b: string)
    requires |a| > 0 && AllDigits(a) && |b| > 0 && AllDigits(b)
    ensures ParseInt(a + "__" + b) == None
    ensures ParseInt("_" + a) == None
    ensures ParseInt(a + "_") == None
  {
    assert IsDigit(a[0]) && IsDigit(a[|a| - 1]) && IsDigit(b[|b| - 1]);
    var t := a + "__" + b;
    assert t[0] == a[0] && t[|t| - 1] == b[|b| - 1];
    assert t[|a|] == '_' && t[|a| + 1] == '_';
    IntCoreOfBare(t);
    var u := "_" + a;
    assert u[|u| - 1] == a[|a| - 1];
    IntCoreOfBare(u);
    var v := a + "_";
    assert v[0] == a[0];
    IntCoreOfBare(v);
  }

  lemma {:induction false} DropOneUnderscore(a: string, b: string)
    requires AllDigits(a) && AllDigits(b)
    ensures DropUnderscores(a + "_" + b) == a + b
  {
    var s := a + "_" + b;
    if a == [] {
      assert s[0] == '_' && s[1..] == b;
    } else {
      assert s[0] == a[0] && IsDigit(a[0]);
      assert s[1..] == a[1..] + "_" + b;
      DropOneUnderscore(a[1..], b);
      assert DropUnderscores(s) == [a[0]] + (a[1..] + b);
      assert a + b == [a[0]] + (a[1..] + b);
    }
  }

  /** `int(str(n)) == n`. */
  lemma ParseIntOfDecimal(n: nat)
    ensures ParseInt(NatToDecimal(n)) == Some(n)
  {
    ParseIntOfDigits(NatToDecimal(n));
    DecimalRoundTrip(n);
  }

  /** `int("-" + str(n)) == -n`. */
  lemma ParseIntOfNegative(n: nat)
    ensures var r := ParseInt("-" + NatToDecimal(n)); r.Some? && r.value == -(n as int)
  {
    ParseIntOfSignedDigits(NatToDecimal(n));
    DecimalRoundTrip(n);
  }
}

=== FILE: translator.dfy ===
/**
 The translation layer between agent calls (`swipe`, `click`, `type`, `wait`,
 `done`) and the action dictionaries the Android environment executes.
 */
module Translator {
  import opened Wrappers
  import opened Text
  import Json
  import opened Env

  /** The exceptions a translation call can raise. */
  datatype PyError = IndexError | ValueError | TypeError

  /** The action dictionaries, one constructor per `action_type` and key set. */
  datatype DeviceAction =
    | Scroll(direction: Json.Value)
    | ClickIndex(index: nat)
    | ClickAt(x: int, y: int)
    | InputText(text: Json.Value)
    | WaitAction

  /** What an agent call evaluates to: an action dictionary or a bare string. */
  datatype AgentAction = Device(action: DeviceAction) | Marker(word: string)

  /** The terminal marker returned by `done()`. */
  const DoneMarker: string := "DONE"
  const Done: AgentAction := Marker(DoneMarker)

  // ---------------------------------------------------------------------------
  // The dictionaries
  // ---------------------------------------------------------------------------

  /** The dictionary literal the translator returns for an action. */
  function ToDict(a: DeviceAction): map<string, Json.Value> {
    match a
    case Scroll(d) => map["action_type" := Json.Str("scroll"), "direction" := d]
    case ClickIndex(i) => map["action_type" := Json.Str("click"), "index" := Json.Num(i)]
    case ClickAt(x, y) => map["action_type" := Json.Str("click"), "x" := Json.Num(x), "y" := Json.Num(y)]
    case InputText(t) => map["action_type" := Json.Str("input_text"), "text" := t]
    case WaitAction => map["action_type" := Json.Str("wait")]
  }

  /** Reads an action dictionary back by its `action_type` and its keys. */
  function FromDict(m: map<string, Json.Value>): Option<DeviceAction> {
    if "action_type" !in m then None
    else
      var kind := m["action_type"];
      if kind == Json.Str("scroll") && m.Keys == {"action_type", "direction"} then
        Some(Scroll(m["direction"]))
      else if kind == Json.Str("click") && m.Keys == {"action_type", "index"}
              && m["index"].Num? && m["index"].n >= 0 then
        Some(ClickIndex(m["index"].n))
      else if kind == Json.Str("click") && m.Keys == {"action_type", "x", "y"}
              && m["x"].Num? && m["y"].Num? then
        Some(ClickAt(m["x"].n, m["y"].n))
      else if kind == Json.Str("input_text") && m.Keys == {"action_type", "text"} then
        Some(InputText(m["text"]))
      else if kind == Json.Str("wait") && m.Keys == {"action_type"} then
        Some(WaitAction)
      else None
  }

  /** The typed actions lose nothing: every dictionary the translator builds
      reads back as the action it was built from, and a dictionary that reads
      as an action is exactly that action's dictionary. */
  lemma DictRoundTrip(a: DeviceAction, m: map<string, Json.Value>)
    ensures FromDict(ToDict(a)) == Some(a)
    ensures FromDict(m) == Some(a) ==> ToDict(a) == m
  {
    match a
    case Scroll(d) =>
      assert ToDict(a).Keys == {"action_type", "direction"};
    case ClickIndex(i) =>
      assert ToDict(a).Keys == {"action_type", "index"};
    case ClickAt(x, y) =>
      assert ToDict(a).Keys == {"action_type", "x", "y"};
      assert ToDict(a).Keys != {"action_type", "index"};
    case InputText(t) =>
      assert ToDict(a).Keys == {"action_type", "text"};
    case WaitAction =>
      assert ToDict(a).Keys == {"action_type"};
  }

  // ---------------------------------------------------------------------------
  // swipe
  // ---------------------------------------------------------------------------

  function Abs(n: int): nat {
    if n < 0 then -n else n
  }

  /** The scroll direction of a displacement: the axis that moved strictly
      more decides, ties go to the horizontal axis, and a non-positive
      horizontal displacement reads as "left". */
  function SwipeDirection(dx: int, dy: int): (d: string)
    ensures d == "down" <==> Abs(dy) > Abs(dx) && dy > 0
    ensures d == "up" <==> Abs(dy) > Abs(dx) && dy < 0
    ensures d == "right" <==> Abs(dy) <= Abs(dx) && dx > 0
    ensures d == "left" <==> Abs(dy) <= Abs(dx) && dx <= 0
  {
    if Abs(dy) > Abs(dx) then (if dy > 0 then "down" else "up")
    else (if dx > 0 then "right" else "left")
  }

  function Opposite(d: string): string {
    if d == "down" then "up"
    else if d == "up" then "down"
    else if d == "right" then "left"
    else "right"
  }

  /** Swiping back along the same line scrolls the opposite way, except for a
      swipe that does not move, which reads as "left" both ways. */
  lemma SwipeReversal(dx: int, dy: int)
    ensures dx != 0 || dy != 0 ==> SwipeDirection(-dx, -dy) == Opposite(SwipeDirection(dx, dy))
    ensures SwipeDirection(0, 0) == "left"
  {
  }

  /** The numeric value of a swipe coordinate; `bool` counts as an integer,
      anything else makes the subtraction raise TypeError. */
  function Numeric(v: Json.Value): Option<int> {
    match v
    case Num(n) => Some(n)
    case Bool(b) => Some(if b then 1 else 0)
    case _ => None
  }

  /** `swipe(*args)`. A string first argument names the start and passes the
      second argument through as the direction; otherwise four or five
      numbers give start and end points (a fifth, the duration, is ignored). */
  function Swipe(args: seq<Json.Value>): (r: Result<AgentAction, PyError>)
    ensures r.Success? ==> r.value.Device? && r.value.action.Scroll?
    ensures |args| >= 2 && args[0].Str? ==> r == Success(Device(Scroll(args[1])))
    ensures r == Failure(ValueError) <==> |args| > 0 && !args[0].Str? && |args| != 4 && |args| != 5
    ensures r == Failure(IndexError) <==> |args| == 0 || (args[0].Str? && |args| == 1)
    ensures r == Failure(TypeError) <==>
              && |args| > 0 && !args[0].Str? && (|args| == 4 || |args| == 5)
              && (Numeric(args[0]).None? || Numeric(args[1]).None? || Numeric(args[2]).None? || Numeric(args[3]).None?)
    ensures (|args| == 4 || |args| == 5) && !args[0].Str?
            && Numeric(args[0]).Some? && Numeric(args[1]).Some? && Numeric(args[2]).Some? && Numeric(args[3]).Some?
            ==> r.Success?
    ensures r.Success? && !args[0].Str? ==>
              (|args| == 4 || |args| == 5)
              && Numeric(args[0]).Some? && Numeric(args[1]).Some?
              && Numeric(args[2]).Some? && Numeric(args[3]).Some?
              && r.value.action.direction == Json.Str(SwipeDirection(
                   Numeric(args[2]).value - Numeric(args[0]).value,
                   Numeric(args[3]).value - Numeric(args[1]).value))
  {
    if |args| == 0 then Failure(IndexError)
    else if args[0].Str? then
      if |args| < 2 then Failure(IndexError) else Success(Device(Scroll(args[1])))
    else if |args| != 4 && |args| != 5 then Failure(ValueError)
    else
      match (Numeric(args[0]), Numeric(args[1]), Numeric(args[2]), Numeric(args[3]))
      case (Some(x0), Some(y0), Some(x1), Some(y1)) =>
        Success(Device(Scroll(Json.Str(SwipeDirection(x1 - x0, y1 - y0)))))
      case _ => Failure(TypeError)
  }

  /** Two concrete swipes: a mostly vertical one scrolls down, a mostly
      horizontal one (with a duration) scrolls right. */
  lemma SwipeExamples()
    ensures Swipe([Json.Num(100), Json.Num(100), Json.Num(100), Json.Num(300)])
            == Success(Device(Scroll(Json.Str("down"))))
    ensures Swipe([Json.Num(100), Json.Num(100), Json.Num(300), Json.Num(100), Json.Num(500)])
            == Success(Device(Scroll(Json.Str("right"))))
  {
  }

  // ---------------------------------------------------------------------------
  // click
  // ---------------------------------------------------------------------------

  /** Python truthiness of an optional attribute: present and non-empty. */
  predicate Present(o: Option<string>) {
    o.Some? && o.value != ""
  }

  /** The lower-cased text, content description and resource id of an
      element, each present one joined to the previous by a single space. */
  function Blob(e: UIElement): string {
    var t := if Present(e.text) then Lower(e.text.value) else "";
    var t := if Present(e.contentDescription) then t + " " + Lower(e.contentDescription.value) else t;
    if Present(e.resourceId) then t + " " + Lower(e.resourceId.value) else t
  }

  /** All keywords occur as substrings of the element's blob. */
  predicate Matches(e: UIElement, keywords: seq<string>) {
    forall k :: 0 <= k < |keywords| ==> Contains(Blob(e), keywords[k])
  }

  /** The keyword occurs, lower-cased, inside one of the element's present attributes. */
  predicate InSomeAttribute(e: UIElement, k: string) {
    || (Present(e.text) && Contains(Lower(e.text.value), k))
    || (Present(e.contentDescription) && Contains(Lower(e.contentDescription.value), k))
    || (Present(e.resourceId) && Contains(Lower(e.resourceId.value), k))
  }

  lemma ContainsNothingInEmpty(k: string)
    requires |k| > 0
    ensures !Contains("", k)
  {
  }

  /** A keyword (never containing whitespace) is found in the blob exactly
      when it is found in a single attribute: the joining spaces never make
      a match across two attributes. */
  lemma BlobMatchesAttributes(e: UIElement, k: string)
    requires IsWord(k)
    ensures Contains(Blob(e), k) <==> InSomeAttribute(e, k)
  {
    var t1 := if Present(e.text) then Lower(e.text.value) else "";
    var t2 := if Present(e.contentDescription) then t1 + " " + Lower(e.contentDescription.value) else t1;
    ContainsNothingInEmpty(k);
    if Present(e.contentDescription) {
      ContainsAcrossSpace(t1, Lower(e.contentDescription.value), k);
    }
    if Present(e.resourceId) {
      ContainsAcrossSpace(t2, Lower(e.resourceId.value), k);
    }
  }

  /** The first element, at index `from` or later, that matches all keywords. */
  function FirstMatch(elements: seq<UIElement>, keywords: seq<string>, from: nat): (r: Option<nat>)
    requires from <= |elements|
    ensures r.Some? ==> from <= r.value < |elements| && Matches(elements[r.value], keywords)
    ensures r.Some? ==> forall j :: from <= j < r.value ==> !Matches(elements[j], keywords)
    ensures r.None? ==> forall j :: from <= j < |elements| ==> !Matches(elements[j], keywords)
    decreases |elements| - from
  {
    if from == |elements| then None
    else if Matches(elements[from], keywords) then Some(from)
    else FirstMatch(elements, keywords, from + 1)
  }

  /** The whitespace-separated, lower-cased keywords of a description. */
  function Keywords(description: string): seq<string> {
    Split(Lower(description))
  }

  /** A descriptive click: the first element containing every keyword,
      or a `wait` when no element does. */
  function DescriptiveClick(elements: seq<UIElement>, description: string): (r: AgentAction)
    ensures r.Device? && (r.action.ClickIndex? || r.action.WaitAction?)
    ensures r.action.ClickIndex? ==>
              r.action.index < |elements|
              && Matches(elements[r.action.index], Keywords(description))
              && forall j :: 0 <= j < r.action.index ==> !Matches(elements[j], Keywords(description))
    ensures r.action.WaitAction? <==>
              forall j :: 0 <= j < |elements| ==> !Matches(elements[j], Keywords(description))
  {
    match FirstMatch(elements, Keywords(description), 0)
    case Some(i) => Device(ClickIndex(i))
    case None => Device(WaitAction)
  }

  /** Python's `int(v)` for a click coordinate. */
  function IntOf(v: Json.Value): Result<int, PyError> {
    match v
    case Num(n) => Success(n)
    case Bool(b) => Success(if b then 1 else 0)
    case Str(s) => (match ParseInt(s) case Some(n) => Success(n) case None => Failure(ValueError))
    case _ => Failure(TypeError)
  }

  /** `click(*args)` against the UI elements last handed to the translator.
      A string first argument is a description; otherwise the first two
      arguments are coordinates. */
  function Click(elements: seq<UIElement>, args: seq<Json.Value>): (r: Result<AgentAction, PyError>)
    ensures |args| > 0 && args[0].Str? ==> r == Success(DescriptiveClick(elements, args[0].s))
    ensures r == Failure(IndexError) <==> |args| == 0 || (!args[0].Str? && |args| == 1)
    ensures |args| >= 2 && !args[0].Str? && IntOf(args[0]).Failure? ==> r == Failure(IntOf(args[0]).error)
    ensures |args| >= 2 && !args[0].Str? && IntOf(args[0]).Success? && IntOf(args[1]).Failure?
            ==> r == Failure(IntOf(args[1]).error)
    ensures |args| >= 2 && !args[0].Str? && IntOf(args[0]).Success? && IntOf(args[1]).Success?
            ==> r == Success(Device(ClickAt(IntOf(args[0]).value, IntOf(args[1]).value)))
  {
    if |args| == 0 then Failure(IndexError)
    else if args[0].Str? then Success(DescriptiveClick(elements, args[0].s))
    else if |args| < 2 then Failure(IndexError)
    else
      match IntOf(args[0])
      case Failure(e) => Failure(e)
      case Success(x) =>
        match IntOf(args[1])
        case Failure(e) => Failure(e)
        case Success(y) => Success(Device(ClickAt(x, y)))
  }

  /** With no keywords at all (an empty or blank description) every element
      matches, so the click lands on index 0 whenever there is an element. */
  lemma BlankDescriptionClicksFirst(elements: seq<UIElement>, description: string)
    requires AllSpace(description)
    ensures |elements| > 0 ==> DescriptiveClick(elements, description) == Device(ClickIndex(0))
    ensures |elements| == 0 ==> DescriptiveClick(elements, description) == Device(WaitAction)
  {
    var low := Lower(description);
    assert AllSpace(low);
    assert low + [] == low;
    LeadingSpacesOf(low, []);
    assert Keywords(description) == [];
  }

  /** The description's letter case does not matter. */
  lemma ClickIgnoresDescriptionCase(elements: seq<UIElement>, description: string)
    ensures DescriptiveClick(elements, Lower(description)) == DescriptiveClick(elements, description)
  {
    LowerIdempotent(description);
  }

  /** Resolution against attributes: a click lands on element `i` exactly when
      every keyword occurs in one of its attributes and no earlier element
      has that property. */
  lemma ClickResolvesByAttributes(elements: seq<UIElement>, description: string, i: nat)
    requires i < |elements|
    ensures DescriptiveClick(elements, description) == Device(ClickIndex(i)) <==>
              (forall k :: 0 <= k < |Keywords(description)| ==> InSomeAttribute(elements[i], Keywords(description)[k]))
              && forall j :: 0 <= j < i ==> exists k :: 0 <= k < |Keywords(description)|
                                                 && !InSomeAttribute(elements[j], Keywords(description)[k])
  {
    var ks := Keywords(description);
    forall e: UIElement, k | 0 <= k < |ks|
      ensures Contains(Blob(e), ks[k]) <==> InSomeAttribute(e, ks[k])
    {
      BlobMatchesAttributes(e, ks[k]);
    }
  }

  /** `type(text)`, `wait(seconds)` and `done()`. */
  function TypeText(text: Json.Value): AgentAction {
    Device(InputText(text))
  }

  function Wait(seconds: Json.Value): AgentAction {
    Device(WaitAction)
  }

  function DoneCall(): AgentAction {
    Done
  }

  /** Coordinates go through `int()`: a decimal string and a boolean are
      accepted, an empty string raises ValueError and `None` raises TypeError. */
  lemma ClickParsesCoordinates(x: int, y: nat)
    ensures Click([], [Json.Num(x), Json.Str(NatToDecimal(y))]) == Success(Device(ClickAt(x, y)))
    ensures Click([], [Json.Bool(true), Json.Num(x)]) == Success(Device(ClickAt(1, x)))
    ensures Click([], [Json.Num(x), Json.Str("")]) == Failure(ValueError)
    ensures Click([], [Json.Null, Json.Num(x)]) == Failure(TypeError)
  {
    ParseIntOfDecimal(y);
  }

  /** `int()` skips spaces and \t-\r around a coordinate, but not the
      separator characters `strip()` would skip. */
  lemma ClickParsesPaddedCoordinates(x: int, y: nat)
    ensures Click([], [Json.Num(x), Json.Str(" " + NatToDecimal(y) + "\n")]) == Success(Device(ClickAt(x, y)))
    ensures Click([], [Json.Num(x), Json.Str("\U{1C}5")]) == Failure(ValueError)
  {
    ParseIntIgnoresPadding(" ", NatToDecimal(y), "\n");
    DecimalRoundTrip(y);
    assert IntOf(Json.Str(" " + NatToDecimal(y) + "\n")) == Success(y);
    ParseIntKeepsSeparators();
    assert IntOf(Json.Str("\U{1C}5")) == Failure(ValueError);
  }

  /** The fixed translations, as the dictionaries they return: coordinates
      and text are carried unchanged, `wait` forgets its argument, and
      `done` yields the bare "DONE" string rather than a dictionary. */
  lemma FixedTranslations(x: int, y: int, text: Json.Value, seconds: Json.Value)
    ensures Click([], [Json.Num(x), Json.Num(y)]).Success?
    ensures ToDict(Click([], [Json.Num(x), Json.Num(y)]).value.action)
            == map["action_type" := Json.Str("click"), "x" := Json.Num(x), "y" := Json.Num(y)]
    ensures ToDict(TypeText(text).action) == map["action_type" := Json.Str("input_text"), "text" := text]
    ensures ToDict(Wait(seconds).action) == map["action_type" := Json.Str("wait")]
    ensures Wait(seconds) == Wait(Json.Null)
    ensures DoneCall() == Marker("DONE") && !DoneCall().Device?
  {
  }

  function WifiScreen(): seq<UIElement> {
    [UIElement(Some("Wi-Fi"), None, None), UIElement(Some("Bluetooth"), None, None)]
  }

  lemma WifiScreenBlobs()
    ensures Blob(WifiScreen()[0]) == "wi-fi"
    ensures Blob(WifiScreen()[1]) == "bluetooth"
  {
    TextOnlyBlob("Wi-Fi");
    TextOnlyBlob("Bluetooth");
    LowerWiFi();
    LowerBluetooth();
  }

  lemma TextOnlyBlob(s: string)
    requires |s| > 0
    ensures Blob(UIElement(Some(s), None, None)) == Lower(s)
  {
  }

  lemma LowerWiFi()
    ensures Lower("Wi-Fi") == "wi-fi"
  {
    var l := Lower("Wi-Fi");
    assert l[0] == 'w' && l[1] == 'i' && l[2] == '-' && l[3] == 'f' && l[4] == 'i';
  }

  lemma LowerWifi()
    ensures Lower("wifi") == "wifi"
  {
    var l := Lower("wifi");
    assert l[0] == 'w' && l[1] == 'i' && l[2] == 'f' && l[3] == 'i';
  }

  lemma LowerBluetooth()
    ensures Lower("Bluetooth") == "bluetooth"
  {
    var l := Lower("Bluetooth");
    assert l[0] == 'b' && l[1] == 'l' && l[2] == 'u' && l[3] == 'e' && l[4] == 't';
    assert l[5] == 'o' && l[6] == 'o' && l[7] == 't' && l[8] == 'h';
  }

  lemma WifiKeywords()
    ensures Keywords("Wi-Fi") == ["wi-fi"]
    ensures Keywords("wifi") == ["wifi"]
  {
    LowerWiFi();
    LowerWifi();
    OneWordKeywords("wi-fi");
    OneWordKeywords("wifi");
  }

  lemma WifiAbsent()
    ensures !Contains("wi-fi", "wifi")
    ensures !Contains("bluetooth", "wifi")
  {
    assert "wi-fi"[..4][2] == '-';
    assert "wi-fi"[1..] == "i-fi";
    assert "i-fi"[..4][0] == 'i';
    assert "i-fi"[1..] == "-fi";
    ContainsKeepsChars("bluetooth", "wifi", 0);
  }

  /** A screen showing Wi-Fi and Bluetooth entries: a click on "Wi-Fi" lands on element 0,
      but "wifi" does not occur in "wi-fi" and falls back to a wait. */
  lemma WifiScreenExamples()
    ensures DescriptiveClick(WifiScreen(), "Wi-Fi") == Device(ClickIndex(0))
    ensures DescriptiveClick(WifiScreen(), "wifi") == Device(WaitAction)
  {
    WifiMatchesFirst();
    ClickLandsOnFirstMatch(WifiScreen(), "Wi-Fi");
    WifiMatchesNone();
    ClickWaitsWithoutMatch(WifiScreen(), "wifi");
  }

  lemma WifiFirstBlob()
    ensures Matches(WifiScreen()[0], ["wi-fi"])
  {
    WifiScreenBlobs();
    assert Contains("wi-fi", "wi-fi");
  }

  lemma WifiMatchesFirst()
    ensures Matches(WifiScreen()[0], Keywords("Wi-Fi"))
  {
    WifiFirstBlob();
    WifiKeywords();
  }

  lemma WifiBlobsMiss()
    ensures !Matches(WifiScreen()[0], ["wifi"]) && !Matches(WifiScreen()[1], ["wifi"])
  {
    WifiScreenBlobs();
    WifiAbsent();
    assert ["wifi"][0] == "wifi";
    assert !Contains(Blob(WifiScreen()[0]), ["wifi"][0]);
    assert !Contains(Blob(WifiScreen()[1]), ["wifi"][0]);
  }

  lemma WifiMatchesNone()
    ensures forall j :: 0 <= j < |WifiScreen()| ==> !Matches(WifiScreen()[j], Keywords("wifi"))
  {
    WifiBlobsMiss();
    WifiKeywords();
  }

  lemma ClickLandsOnFirstMatch(elements: seq<UIElement>, description: string)
    requires |elements| > 0 && Matches(elements[0], Keywords(description))
    ensures DescriptiveClick(elements, description) == Device(ClickIndex(0))
  {
  }

  lemma ClickWaitsWithoutMatch(elements: seq<UIElement>, description: string)
    requires forall j :: 0 <= j < |elements| ==> !Matches(elements[j], Keywords(description))
    ensures DescriptiveClick(elements, description) == Device(WaitAction)
  {
  }

  lemma OneWordKeywords(w: string)
    requires IsWord(w)
    ensures Split(w) == [w]
  {
    SplitJoinRoundTrip([w]);
  }
}

=== FILE: verifier.dfy ===
/**
 The verifier agent: asks the language model whether a subtask was achieved,
 judging from the UI elements of the current observation, and fails open
 when the answer cannot be read.
 */
module Verifier {
  import opened Wrappers
  import opened Text
  import Json
  import opened Env
  import opened Llm
  import Fences

  /** Reason reported when the model's answer gives none. */
  const NoReason: string := "No reason provided."
  /** Reason reported when no verdict could be read; the check then passes. */
  const FailOpenReason: string := "Could not get a valid verdict from the LLM."
  /** Verdict assumed when the answer names none. */
  const DefaultVerdict: string := "FAIL"

  /** What `verify` returns, and the agent state and request it leaves behind. */
  datatype Outcome = Outcome(
    passed: bool,
    reason: Json.Value,
    conversation: Conversation,
    request: Conversation)

  /** A verdict read from a well-formed answer. */
  datatype Verdict = Verdict(passed: bool, reason: Json.Value)

  /** The observation's UI elements, one `- <element>` line each; an
      observation without UI elements gives the empty text. */
  function UiElementsText(obs: Observation, show: UIElement -> string): string {
    Join("\n", UiLines(obs.uiElements.GetOr([]), show))
  }

  function UiLines(elements: seq<UIElement>, show: UIElement -> string): (lines: seq<string>)
    ensures |lines| == |elements|
    ensures forall i :: 0 <= i < |elements| ==> lines[i] == "- " + show(elements[i])
  {
    if elements == [] then [] else ["- " + show(elements[0])] + UiLines(elements[1..], show)
  }

  /** Reads a verdict from a decoded answer. The answer must be an object; a
      missing verdict counts as "FAIL", a verdict that is not a string makes
      `.upper()` raise, and the comparison with "PASS" ignores case. */
  function ReadVerdict(answer: Option<Json.Value>): (v: Option<Verdict>)
    ensures v.Some? ==> answer.Some? && answer.value.Obj?
    ensures answer.Some? && answer.value.Obj? && "verdict" !in answer.value.fields
            ==> v.Some? && !v.value.passed
    ensures answer.Some? && answer.value.Obj? && "verdict" in answer.value.fields
            && answer.value.fields["verdict"].Str?
            ==> v.Some? && (v.value.passed <==> Upper(answer.value.fields["verdict"].s) == "PASS")
    ensures answer.Some? && answer.value.Obj? && "verdict" in answer.value.fields
            && !answer.value.fields["verdict"].Str?
            ==> v.None?
    ensures v.Some? ==> v.value.reason == Json.Lookup(answer.value.fields, "reason", Json.Str(NoReason))
  {
    match answer
    case Some(Obj(fields)) =>
      var verdict := Json.Lookup(fields, "verdict", Json.Str(DefaultVerdict));
      if verdict.Str? then
        Some(Verdict(Upper(verdict.s) == "PASS", Json.Lookup(fields, "reason", Json.Str(NoReason))))
      else None
    case _ => None
  }

  /** `verify(subgoal, observation)` on a verifier whose agent holds
      `conversation`. The prompt is appended to the conversation, the model
      answers the whole request, and the agent is reset on every path. */
  function Verify(conversation: Conversation, subgoal: Json.Value, obs: Observation,
                  show: UIElement -> string, llm: Model, decode: Decoder): (r: Outcome)
    ensures r.request == conversation
              + [Message("user", VerifierPrompt(subgoal, UiElementsText(obs, show)), [])]
    ensures r.conversation == FreshConversation
    ensures ReadVerdict(Answer(llm(r.request), decode)).None? ==>
              r.passed && r.reason == Json.Str(FailOpenReason)
    ensures ReadVerdict(Answer(llm(r.request), decode)).Some? ==>
              r.passed == ReadVerdict(Answer(llm(r.request), decode)).value.passed
              && r.reason == ReadVerdict(Answer(llm(r.request), decode)).value.reason
  {
    var request := conversation + [Message("user", VerifierPrompt(subgoal, UiElementsText(obs, show)), [])];
    match ReadVerdict(Answer(llm(request), decode))
    case Some(v) => Outcome(v.passed, v.reason, FreshConversation, request)
    case None => Outcome(true, Json.Str(FailOpenReason), FreshConversation, request)
  }

  /** The reference reading of "PASS" after `.upper()`: four letters, each
      the upper or the lower case of P, A, S, S. */
  predicate IsPassAnyCase(s: string) {
    && |s| == 4
    && (s[0] == 'P' || s[0] == 'p')
    && (s[1] == 'A' || s[1] == 'a')
    && (s[2] == 'S' || s[2] == 's')
    && (s[3] == 'S' || s[3] == 's')
  }

  lemma UpperIsPass(s: string)
    ensures Upper(s) == "PASS" <==> IsPassAnyCase(s)
  {
    if Upper(s) == "PASS" {
      assert |s| == 4;
      assert UpperChar(s[0]) == 'P' && UpperChar(s[1]) == 'A';
      assert UpperChar(s[2]) == 'S' && UpperChar(s[3]) == 'S';
    }
    if IsPassAnyCase(s) {
      assert Upper(s)[0] == 'P' && Upper(s)[1] == 'A' && Upper(s)[2] == 'S' && Upper(s)[3] == 'S';
    }
  }

  /** A check passes exactly when the model call raised, the cleaned answer
      did not decode, the answer is not an object, its verdict is not a
      string, or its verdict is a string spelling "pass" in any letter case.
      An object without a verdict therefore fails. */
  lemma VerifyPassesIff(conversation: Conversation, subgoal: Json.Value, obs: Observation,
                        show: UIElement -> string, llm: Model, decode: Decoder)
    ensures var r := Verify(conversation, subgoal, obs, show, llm, decode);
            var reply := llm(r.request);
            var answer := if reply.Text? then decode(Fences.StripFences(reply.text)) else None;
            r.passed <==>
              || reply.Raised?
              || answer.None?
              || !answer.value.Obj?
              || ("verdict" in answer.value.fields && !answer.value.fields["verdict"].Str?)
              || ("verdict" in answer.value.fields && answer.value.fields["verdict"].Str?
                  && IsPassAnyCase(answer.value.fields["verdict"].s))
  {
    var r := Verify(conversation, subgoal, obs, show, llm, decode);
    var answer := Answer(llm(r.request), decode);
    if answer.Some? && answer.value.Obj? && "verdict" in answer.value.fields
       && answer.value.fields["verdict"].Str? {
      UpperIsPass(answer.value.fields["verdict"].s);
    }
  }

  /** The fail-open paths: a model call that raises, an answer that does not
      decode, an answer that is not an object and a verdict that is not a
      string all pass with the fixed reason. */
  lemma VerifyFailsOpen(conversation: Conversation, subgoal: Json.Value, obs: Observation,
                        show: UIElement -> string, llm: Model, decode: Decoder)
    ensures var r := Verify(conversation, subgoal, obs, show, llm, decode);
            var reply := llm(r.request);
            var answer := if reply.Text? then decode(Fences.StripFences(reply.text)) else None;
            (|| reply.Raised?
             || answer.None?
             || !answer.value.Obj?
             || ("verdict" in answer.value.fields && !answer.value.fields["verdict"].Str?))
            ==> r.passed && r.reason == Json.Str(FailOpenReason)
  {
  }

  /** An object answer without a verdict fails, with its own reason or the
      default one. */
  lemma MissingVerdictFails(conversation: Conversation, subgoal: Json.Value, obs: Observation,
                            show: UIElement -> string, llm: Model, decode: Decoder,
                            fields: map<string, Json.Value>)
    requires var request := Verify(conversation, subgoal, obs, show, llm, decode).request;
             Answer(llm(request), decode) == Some(Json.Obj(fields))
    requires "verdict" !in fields
    ensures var r := Verify(conversation, subgoal, obs, show, llm, decode);
            !r.passed && r.reason == Json.Lookup(fields, "reason", Json.Str(NoReason))
  {
  }

  /** Because every call resets the agent, a verification started from a
      fresh agent shows the model only its own prompt, whatever was verified
      before: successive checks are independent. */
  lemma SuccessiveChecksIndependent(subgoal1: Json.Value, obs1: Observation,
                                    subgoal2: Json.Value, obs2: Observation,
                                    show: UIElement -> string, llm: Model, decode: Decoder)
    ensures var first := Verify(FreshConversation, subgoal1, obs1, show, llm, decode);
            var second := Verify(first.conversation, subgoal2, obs2, show, llm, decode);
            second.request == [Message("user", VerifierPrompt(subgoal2, UiElementsText(obs2, show)), [])]
            && second == Verify(FreshConversation, subgoal2, obs2, show, llm, decode)
  {
  }

  /** The UI text lists the elements one per line, in order, when no
      element's text spans lines; a missing element list gives no text. */
  lemma UiElementsTextLines(obs: Observation, show: UIElement -> string)
    requires obs.uiElements.Some? && |obs.uiElements.value| >= 1
    requires forall i :: 0 <= i < |obs.uiElements.value| ==> '\n' !in show(obs.uiElements.value[i])
    ensures SplitOn(UiElementsText(obs, show), '\n') == UiLines(obs.uiElements.value, show)
  {
    var lines := UiLines(obs.uiElements.value, show);
    forall i | 0 <= i < |lines|
      ensures '\n' !in lines[i]
    {
      assert lines[i] == "- " + show(obs.uiElements.value[i]);
    }
    SplitOnJoin(lines, '\n');
  }

  lemma UiElementsTextOfNone(screenshot: Png, show: UIElement -> string)
    ensures UiElementsText(Observation(screenshot, None), show) == ""
  {
  }
}

=== FILE: wrappers.dfy ===
/** Failure-carrying datatypes shared by the whole model. */
module Wrappers {

  /** A value that may be absent: Python's `None` or a missing dictionary key. */
  datatype Option<+T> = None | Some(value: T) {

    /** The value, or `default` when absent (`dict.get(key, default)`). */
    function GetOr(default: T): T {
      match this
      case Some(v) => v
      case None => default
    }
  }

  /** The outcome of a Python call that either returns a value or raises. */
  datatype Result<+R, +E> = Success(value: R) | Failure(error: E)
}
